=== FILE: README.md ===
# WhatsApp adapter core, modelled in Dafny

This project models the core of a WhatsApp chatbot adapter written in
TypeScript. Inbound WhatsApp messages arrive in batches. Each message is
filed under its conversation (a *chat*, keyed by the remote JID) and
classified by kind. A callback decides whether the chat is answered or
ignored. For every chat awaiting a reply, the adapter asks a reasoning
backend a question built from the recent history. It then parses the
backend's reply and answers with a text, a reaction or an apology. A
separate connection handler decides, on every connection update, whether to
show a QR code, reconnect, wipe the stored credentials or exit.

Modules, one per concern:

- `Wrappers`: `Option` and `Result`.
- `Text`: the JavaScript string primitives the core relies on. These are the
  `\s` and `\w` character classes, `trim`, `startsWith`, `endsWith` and
  `includes`. JavaScript's `trim` removes exactly the `\s` set, so both are
  one predicate here.
- `Chats`: `whatsapp-chat.service.ts`. It holds the message kinds, chat
  statuses, the registry `map<string, Chat>`, `identifyMessageType`, content
  extraction, media file names, and `syncMessageChat` for one message and
  for a batch.
- `Protocol`: the reply grammar `- type:\s*(\w+)\s*- response:\s*([\s\S]*)`
  and `parseResponse`.
  - `MatchPrefix` computes a match at one position. `FirstMatch` finds the
    leftmost position, as `String.prototype.match` does.
  - `Decomposes` is an independent, declarative reading of the pattern.
    Lemmas prove that the computed match is sound and complete with respect
    to it.
- `Reactions`: the `emojiMap` table and its `|| "🤔"` default.
- `Handler`: `whatsapp-message-handler.service.ts`.
  - The ignore callback and `mapQuestionToContext`, which computes the
    10-message window, the awaiting-reply set and the pending block.
  - `handleChat`, which dispatches and then marks the chat replied.
  - `handleIncomingMessage`, which chains sync, read receipts and one round
    per returned chat.
- `Connect`: the `connection.update` listener of `whatsapp-connect.service.ts`
  as a pure decision function. `Drive` threads the retry budget through the
  sockets that successive reconnects create.

Effects on the socket become values of `Handler.Effect`:

- presence updates;
- read receipts;
- text replies quoting a message;
- reactions.

Connection decisions become values of `Connect.Action`. The backend is an
input. `HandleChat` takes its reply as `Option<string>`, and `HandleIncoming`
takes a function from the question to that reply. `None` stands for every
way `generateResponse` or the reply parsing throws. That includes an
`outputs.results.message.text` that is missing or is not a string, for which
`response.match` throws. The clock reading and the success of each media
download are fields of `Chats.Delivery`.

Facts about the code that shape the model:

- The context window is `slice(-10)`: the last ten messages.
- `awaitingReply` is every message with `isReplied === false`. Self-authored
  messages are included and there is no kind filter. Only the rendered
  pending block drops self-authored messages. So three self-authored and two
  counterpart messages, none replied yet, give five awaiting messages
  (`Handler.MixedAuthorsScenario`).
- The table key `":thanks"` has no closing colon. The reaction name
  `:thanks:` therefore yields the default 🤔.

`DisconnectReason.loggedOut` comes from the Baileys library, which is not
part of this model. Its value 401 is taken from that library.

## Model

| member | source | states |
|---|---|---|
| Text.Trim | src/whatsapp-adapter/whatsapp-message-handler.service.ts:175 | JavaScript `trim`: the input is a white-space prefix, the result, and a white-space suffix; the result is empty exactly when the input is all white space, and otherwise starts and ends with a non-white-space character |
| Text.Contains | src/whatsapp-adapter/whatsapp-connect.service.ts:55 | `includes`: true exactly when the needle occurs at some position |
| Text.SkipWord | src/whatsapp-adapter/whatsapp-message-handler.service.ts:170 | the `\w+` group takes the maximal run of word characters |
| Text.TrimStartIdempotent | src/whatsapp-adapter/whatsapp-message-handler.service.ts:170-175 | trimming leading white space twice is the same as once, so the greedy `\s*` before the second group and the later `trim` agree |
| Protocol.MatchPrefixSound | src/whatsapp-adapter/whatsapp-message-handler.service.ts:170 | every computed match splits the text into the two tags, three white-space runs, a word and the rest, as the pattern reads |
| Protocol.MatchPrefixComplete | src/whatsapp-adapter/whatsapp-message-handler.service.ts:170 | every such split is found, with the same type word and the same trimmed response, however the white space is shared out |
| Protocol.MatchPrefix | src/whatsapp-adapter/whatsapp-message-handler.service.ts:170 | a match at a position starts with `- type:`, captures a `\w+` word, and its response has no leading white space |
| Protocol.FirstMatch | src/whatsapp-adapter/whatsapp-message-handler.service.ts:171 | the reported position matches, and no earlier position does (leftmost match of a non-global regex) |
| Protocol.ParseResponse | src/whatsapp-adapter/whatsapp-message-handler.service.ts:169-179 | total; the result is the sentinel `("fallback","")` or a word type with a non-empty response that has no white space at its ends; with no match anywhere it is the sentinel |
| Protocol.ParseAt | src/whatsapp-adapter/whatsapp-message-handler.service.ts:171-178 | the parse is decided by the leftmost match: the sentinel for an empty second group, otherwise the type word and the trimmed response |
| Protocol.ParseWellFormed | src/whatsapp-adapter/whatsapp-message-handler.service.ts:169-178 | a reply following the grammar, after any preamble without a dash, gives its type word and trimmed response, or the sentinel when the response is blank |
| Protocol.ParseWithoutTypeTag | src/whatsapp-adapter/whatsapp-message-handler.service.ts:174-178 | a reply without the literal `- type:` gives the sentinel |
| Protocol.ParseTextExample | src/whatsapp-adapter/whatsapp-message-handler.service.ts:240-242 | the prompt's text example parses to `("text","Hello!")` |
| Protocol.ParseReactionExample | src/whatsapp-adapter/whatsapp-message-handler.service.ts:244-246 | the prompt's reaction example parses to `("reaction",":like:")` |
| Protocol.ParseFreeTextExample | src/whatsapp-adapter/whatsapp-message-handler.service.ts:176-178 | free text without the grammar gives the sentinel |
| Reactions.Emoji | src/whatsapp-adapter/whatsapp-message-handler.service.ts:22-63 | the glyph is the table's entry when there is one; the default 🤔 comes back exactly for unknown names and for `:thinking:` |
| Reactions.EmojiExamples | src/whatsapp-adapter/whatsapp-message-handler.service.ts:23-28 | `:like:` gives 👍, `:thanks` gives 🙏, and `:thanks:` falls back to 🤔 |
| Chats.RecogniseKeyOf | src/whatsapp-adapter/whatsapp-chat.service.ts:132-142 | the nine recognised payload keys are exactly the enum strings of the nine known kinds, in both directions |
| Chats.FirstRecognised | src/whatsapp-adapter/whatsapp-chat.service.ts:144-146 | the index found holds a recognised key and no earlier key is recognised |
| Chats.IdentifyMessageType | src/whatsapp-adapter/whatsapp-chat.service.ts:127-149 | `Unknown` without a payload, and `Unknown` exactly when no payload key is recognised |
| Chats.IdentifyFirstKey | src/whatsapp-adapter/whatsapp-chat.service.ts:144-148 | the kind is the one named by the first recognised key, whatever follows it |
| Chats.MediaExtension | src/whatsapp-adapter/whatsapp-chat.service.ts:195-207 | the extension is `bin` exactly for non-media kinds and never contains a dot or a slash |
| Chats.MediaFilename | src/whatsapp-adapter/whatsapp-chat.service.ts:187-193 | the name starts with `./medias/`, carries the message id right after it and ends with `.` and the extension |
| Chats.MediaFilenameInjective | src/whatsapp-adapter/whatsapp-chat.service.ts:187-193 | two equal file names with the same extension come from the same id, and the same id gives the same extension |
| Chats.ExtractContent | src/whatsapp-adapter/whatsapp-chat.service.ts:81-96 | extraction fails exactly for an extended-text or reaction kind whose payload is `null`; content is absent exactly for a media kind whose download failed; a downloaded media kind gives its file name; extended text and reaction give the payload's `text`, or `""` when it has none; conversation gives its string, or `""`; location, contact and unknown give `""` |
| Chats.NewMessage | src/whatsapp-adapter/whatsapp-chat.service.ts:73-79 | the new message is not replied, is self-authored exactly when `key.fromMe ?? false`, and keeps its kind and transport data; its content is the extracted content and its timestamp the arrival time |
| Chats.ArrivalTime | src/whatsapp-adapter/whatsapp-chat.service.ts:61 | the message's own timestamp when it is present and non-zero, and the clock reading otherwise |
| Chats.FiledTextContent | src/whatsapp-adapter/whatsapp-chat.service.ts:81-98 | a conversation, extended-text or reaction message with text `x` is filed as the chat's last message with content `x` |
| Chats.SyncOne | src/whatsapp-adapter/whatsapp-chat.service.ts:59-101 | the chat is created on first sight; only that chat changes; its history grows by exactly the new message when extraction succeeds and stays the same otherwise; a failure leaves it awaiting a reply; the registry stays keyed by chat id |
| Chats.SyncBatch | src/whatsapp-adapter/whatsapp-chat.service.ts:55-125 | the registry gains exactly the batch's chat ids, chats outside the batch are unchanged, returned ids come from the batch, and the registry stays keyed by chat id |
| Chats.SyncBatchReturnsSucceeded | src/whatsapp-adapter/whatsapp-chat.service.ts:104-124 | the returned chats are one per successful message, in input order, repeats included |
| Chats.SyncBatchHistory | src/whatsapp-adapter/whatsapp-chat.service.ts:63-98 | each chat's history after the batch is its history before plus that chat's successful messages, in order |
| Chats.NewChatHistory | src/whatsapp-adapter/whatsapp-chat.service.ts:63-67 | an unseen id gets a chat whose history is exactly its successful messages in the batch |
| Chats.LastIndex | src/whatsapp-adapter/whatsapp-chat.service.ts:69-100 | the position of the batch's last message addressed to a chat, whose status reset and callback run last: it exists exactly when the batch addresses the chat, is addressed to it, and no later message of the batch is |
| Chats.AppendedHas | src/whatsapp-adapter/whatsapp-chat.service.ts:63-98 | every message whose content is extracted is filed under its own chat |
| Chats.SucceededIdsOfAppended | src/whatsapp-adapter/whatsapp-chat.service.ts:98-124 | a chat that had a message filed in the batch is among the chats returned |
| Handler.IgnoreStatus | src/whatsapp-adapter/whatsapp-message-handler.service.ts:80-100 | the status becomes `IGNORED` exactly for a group chat, a self-authored message, an unsupported kind, or a chat already ignored; otherwise it is left as it was |
| Handler.SyncStatusDecidedByLast | src/whatsapp-adapter/whatsapp-chat.service.ts:69-100 | after a batch, a chat's status is `IGNORED` when its last message was filed and ignored, and `AWAITING_REPLY` otherwise |
| Handler.AwaitingIndices | src/whatsapp-adapter/whatsapp-message-handler.service.ts:182 | exactly the positions of unreplied messages, in increasing order |
| Handler.PendingIsUnanswered | src/whatsapp-adapter/whatsapp-message-handler.service.ts:202-203 | filtering the awaiting set by author gives the counterpart's unreplied messages, in order |
| Handler.MapQuestionToContext | src/whatsapp-adapter/whatsapp-message-handler.service.ts:181-223 | the window holds min(10, n) lines for a chat of n messages |
| Handler.MapQuestionToContextSpec | src/whatsapp-adapter/whatsapp-message-handler.service.ts:181-223 | the awaiting set is every unreplied message, in order; the window is the last min(10, n) messages in order; the sender label is "me" exactly for self-authored messages; the pending block renders the counterpart's unreplied messages |
| Handler.MixedAuthorsScenario | src/whatsapp-adapter/whatsapp-message-handler.service.ts:182-203 | three self-authored and two counterpart unreplied messages give five awaiting and two pending |
| Handler.Dispatch | src/whatsapp-adapter/whatsapp-message-handler.service.ts:142-165 | exactly one send, aimed at the chat's last message: a reaction exactly when the trimmed type is `reaction`, a text with the response when it is `text`, and the apology otherwise |
| Handler.DispatchMalformed | src/whatsapp-adapter/whatsapp-message-handler.service.ts:157-165 | a reply without the grammar ends in the apology quoting the last message |
| Handler.DispatchLikeExample | src/whatsapp-adapter/whatsapp-message-handler.service.ts:142-149 | the reaction example reacts with 👍 to the last message's key |
| Handler.MarkReplied | src/whatsapp-adapter/whatsapp-message-handler.service.ts:167 | exactly the listed positions become replied; nothing else changes |
| Handler.HandleChat | src/whatsapp-adapter/whatsapp-message-handler.service.ts:115-168 | a no-op unless the chat awaits a reply; without a backend call the chat is unchanged; the chat id is kept; any change leaves the chat `REPLIED` |
| Handler.Answer | src/whatsapp-adapter/whatsapp-message-handler.service.ts:139-167 | after a backend reply the chat keeps its id and its number of messages and is `REPLIED`; a message is replied exactly when it already was or its position was awaiting, and nothing else about any message changes; the effects are "available", "composing" and exactly one send to the chat, which quotes or reacts to its last message; the question asked is recorded |
| Handler.HandleChatMarks | src/whatsapp-adapter/whatsapp-message-handler.service.ts:166-167 | only `isReplied` flags and the status can change, flags never revert, and a round that changes the chat leaves every message replied |
| Handler.HandleChatNothingAwaiting | src/whatsapp-adapter/whatsapp-message-handler.service.ts:120-129 | with every message replied, only the "available" presence is sent, the backend is not asked and the chat stays as it was |
| Handler.HandleChatAnswers | src/whatsapp-adapter/whatsapp-message-handler.service.ts:120-165 | with an unreplied message and a backend reply, the backend is asked the chat's question and the effects are "available", "composing", then the dispatch |
| Handler.HandleChatAnswersMarks | src/whatsapp-adapter/whatsapp-message-handler.service.ts:166-167 | after that dispatch the chat is `REPLIED` and every message is marked replied |
| Handler.HandleChatBackendFails | src/whatsapp-adapter/whatsapp-message-handler.service.ts:133-134 | a failed backend call is asked but changes nothing in the chat |
| Handler.HandleChatNoCallNoReply | src/whatsapp-adapter/whatsapp-message-handler.service.ts:116-129 | when the backend is not asked, its reply does not matter |
| Handler.HandleChatIdempotent | src/whatsapp-adapter/whatsapp-message-handler.service.ts:116-119 | a second round on a chat the first round changed is a no-op |
| Handler.HandleChatSends | src/whatsapp-adapter/whatsapp-message-handler.service.ts:142-166 | one round sends at most one message, only to its own chat, and only while moving it from awaiting to replied; a round that sends nothing leaves the chat unchanged |
| Handler.HandleAll | src/whatsapp-adapter/whatsapp-message-handler.service.ts:109-112 | the registry keeps its keys, chats not listed are unchanged, and a registry keyed by chat id stays so |
| Handler.HandleAllAnswers | src/whatsapp-adapter/whatsapp-message-handler.service.ts:109-167 | a listed chat that awaits a reply, has an unreplied message and whose question the backend answers gets exactly one message, however often it is listed |
| Handler.AnsweredRoundSendsOnce | src/whatsapp-adapter/whatsapp-message-handler.service.ts:120-165 | a round on an awaiting chat with an unreplied message and a backend reply sends exactly one message to it |
| Handler.HandleAllSendsOnce | src/whatsapp-adapter/whatsapp-message-handler.service.ts:109-112 | however often a chat repeats in the returned list, it gets at most one message, and only if it was awaiting a reply |
| Handler.HandleAllInterleaved | src/whatsapp-adapter/whatsapp-message-handler.service.ts:109-112 | as the loop runs in the source, the effects and the questions are exactly those of the rounds played on the registry as it was before the loop, call `j` on the chat of `ids[j]`; the writes of earlier calls never reach later ones |
| Handler.InterleavedLastWriteWins | src/whatsapp-adapter/whatsapp-message-handler.service.ts:109-112 | after that loop, a chat it did not visit keeps its entry, and every visited chat holds the chat its calls wrote, computed from that chat in the registry before the loop, so every call on one chat writes the same value |
| Handler.InterleavedAnswersTwice | src/whatsapp-adapter/whatsapp-message-handler.service.ts:109-133 | when every round reads the chat before any round resumes, a chat listed twice that awaits a reply is sent two messages |
| Handler.SequentialAnswersOnce | src/whatsapp-adapter/whatsapp-message-handler.service.ts:109-133 | run one after another, the same two rounds send that chat exactly one message |
| Handler.HandleIncoming | src/whatsapp-adapter/whatsapp-message-handler.service.ts:69-113 | the first effect is one read receipt for every message of the batch; the registry gains the batch's chat ids, leaves other chats alone and stays keyed by id |
| Handler.HandleIncomingRepliesOnce | src/whatsapp-adapter/whatsapp-message-handler.service.ts:69-113 | a batch sends at most one message to each chat |
| Handler.AwaitingAfterBatch | src/whatsapp-adapter/whatsapp-message-handler.service.ts:69-100 | when a chat's last message in the batch is filed and not ignored, the chat awaits a reply after the batch and is among the chats returned |
| Handler.HandleIncomingAnswers | src/whatsapp-adapter/whatsapp-message-handler.service.ts:69-113 | a chat whose last message in the batch is filed and not ignored, and whose question the backend answers, gets exactly one message from the batch |
| Handler.IgnoredBatchIsSilent | src/whatsapp-adapter/whatsapp-message-handler.service.ts:80-112 | a batch of ignorable messages asks the backend nothing, sends only the read receipt and leaves its chats `IGNORED` |
| Connect.OnConnectionUpdate | src/whatsapp-adapter/whatsapp-connect.service.ts:43-89 | a QR code is shown exactly when present, and it is the update's code; a close without error data throws; a close reporting a restart request reconnects at once with budget 5, and a close reporting a logout and no restart request wipes the credentials and reconnects with budget 5; a plain close with budget n >= 0 reconnects after 10 s with n - 1 or, at 0, exits with code 1; non-close updates only log |
| Connect.LogoutResets | src/whatsapp-adapter/whatsapp-connect.service.ts:64-78 | a logout wipes the credentials and restores budget 5, whatever the budget was |
| Connect.RestartWins | src/whatsapp-adapter/whatsapp-connect.service.ts:55-58 | a restart request reconnects at once with budget 5, even when it also reports a logout |
| Connect.Drive | src/whatsapp-adapter/whatsapp-connect.service.ts:43-89 | at most one action per update, and only the last action can end the chain of sockets |
| Connect.DriveBudgetBounded | src/whatsapp-adapter/whatsapp-connect.service.ts:54-82 | from a budget in 0..5, every new socket gets a budget in 0..5, so the budget never goes negative |
| Connect.Backoff | src/whatsapp-adapter/whatsapp-connect.service.ts:68-69 | `n` delayed reconnects with budgets n - 1 down to 0 |
| Connect.DriveExhausts | src/whatsapp-adapter/whatsapp-connect.service.ts:64-82 | from budget n, n + 1 plain closes give exactly n delayed reconnects and then exit code 1 |
| Connect.DefaultBudgetExample | src/whatsapp-adapter/whatsapp-connect.service.ts:21 | with the default budget, the sixth consecutive plain close exits |

## Findings

| source | as written | input that shows it | evidently intended | confidence | as-written member | corrected member |
|---|---|---|---|---|---|---|
| src/whatsapp-adapter/whatsapp-message-handler.service.ts:109-112 | `forEach` starts every `handleChat` without awaiting it, so each call passes the status check and reads `awaitingReply` before any call resumes from the backend `await` | a chat awaiting a reply with an unreplied message, listed twice because two of its messages came in one batch, and a backend that replies | one reply per chat per batch | medium, not executed | Handler.InterleavedAnswersTwice | Handler.SequentialAnswersOnce |

`Handler.HandleAllInterleaved` models the loop as written: every round reads the
registry as it was before the loop. `Handler.HandleAll`, which the rest of the
model uses, runs the rounds one after another, and `Handler.HandleAllSendsOnce`
proves that it sends each chat at most one message.

## Left out

- Network and socket I/O are not performed. This covers the backend HTTP call, `sendMessage`, `sendPresenceUpdate` and `readMessages`. They appear only as `Handler.Effect` values and as the backend input.
- The filesystem is not modelled: the media download, `writeFile`, and the creation and deletion of the credentials directory. A download's success is an input (`Chats.Delivery.downloaded`).
- QR rendering and the QR route are not modelled. `Connect.ShowQr` stands for showing the code.
- Timestamps are plain integers. `Date` construction and `toUTCString` are not modelled, including the unit of `messageTimestamp`.
- The question text is not modelled: the fixed instruction block from `generatePrompting`, the separators, and the "me"/push-name labels beyond their choice. `Handler.Context` keeps the rendered lines in order.
- Handler.HandleIncoming: the model is sequential, but the source is not.
  - `syncMessageChat` starts every message at once. Media messages await their download, so in the source they can interleave with later messages. The model is exact only for batches without media.
  - `forEach` starts every `handleChat` before any backend reply arrives. A chat with k messages in one batch is therefore asked k times, and may be answered k times (see Findings).
  - Batches are handled one at a time. In the source, a round of one batch can resume from the backend after a later batch has reset the chat to `AWAITING_REPLY` and filed a new message, but before that batch's round runs. The first round then sets `REPLIED`, the later round skips the chat, and the new message is never answered.
- Handler.HandleAllSendsOnce: holds only when the rounds run one after another. The source's `forEach` answers a chat listed twice once per listing (`Handler.InterleavedAnswersTwice`).
- Handler.HandleIncomingRepliesOnce: holds only for the sequential reading. In the source, two messages from one contact in one batch can draw two replies.
- Handler.HandleAllAnswers: holds only when the rounds run one after another. The source's `forEach` answers a chat once per listing (`Handler.InterleavedAnswersTwice`).
- Handler.HandleIncomingAnswers: holds only for the sequential reading. In the source, a chat with k messages in one batch may get k replies.
- Handler.HandleChat: a `None` reply stands for a rejected `handleChat` promise. The rejection comes from the backend error at whatsapp-message-handler.service.ts:289, or from a reply without `outputs` at :133-134. The `forEach` at :109-112 does not await the promise, so nothing handles the rejection. The model then keeps the chat in the registry and ends the round. What the runtime does with an unhandled rejection is not modelled. Depending on the runtime, that may end the process, and with it the in-memory registry.
- Handler.HandleAllInterleaved: lists the effects of each `handleChat` together. In the source, the effects of different chats interleave in time.
- The callbacks of `syncMessageChat` are modelled as functions deciding the chat's status. That is all the callback in this core changes.
- JavaScript objects are not modelled as objects.
  - Payload objects are sequences of key/value pairs in key order.
  - The model treats inherited keys such as `constructor` as absent. In JavaScript, `key in mapMessageType` and `emojiMap[response]` do see them.
  - A `conversation` field that is not a string is modelled as empty content; the source would store the value itself.
  - Only the `text` field of a payload object is read.
  - An undefined `key`, `remoteJid` or `id` is not modelled.
- `Connect`: a socket's listener is never removed, so an old socket could still deliver updates after a reconnect. `Connect.Drive` hands every update to the newest socket only.
- Connect.Drive: after `Connect.Fault`, the async listener rejects and no reconnect is scheduled, so the chain ends there. What the runtime then does with the unhandled rejection is not modelled.
- `DisconnectReason.loggedOut` (401) belongs to the Baileys library, which is not part of this model. The constant `Connect.LoggedOut` carries its value.
- Not modelled, as they are not part of this core:
  - the memory service, whose bodies are commented out;
  - the Mongoose schemas;
  - the Langflow service;
  - module wiring and configuration.

=== FILE: chats.dfy ===
/**
  The chat registry and message classification of whatsapp-chat.service.ts:
  message kinds, chat statuses, the in-memory map from conversation id to
  chat, and `syncMessageChat`, which files every inbound message under its
  chat.
 */
module Chats {
  import opened Wrappers
  import opened Text

  datatype MessageType =
    | Conversation | Image | Video | Audio | Document
    | Location | Contact | Reaction | ExtendedText | Unknown

  datatype ChatStatus = Replied | AwaitingReply | Ignored | Archived

  /** The value under one key of a decoded transport payload: `null`, a
      string, or an object whose optional `text` field is the only one read. */
  datatype Field = Null | Str(s: string) | Obj(text: Option<string>)

  /** The transport's message key; `fromMe` may be missing. */
  datatype MessageKey = MessageKey(remoteJid: string, fromMe: Option<bool>, id: string)

  /** An inbound transport message. `message` lists the payload's keys in
      `Object.keys` order and is absent when the transport sent none. */
  datatype RawMessage = RawMessage(
    key: MessageKey,
    message: Option<seq<(string, Field)>>,
    messageTimestamp: Option<int>,
    pushName: Option<string>)

  /** A message as the chat keeps it. `content` is absent only when a media
      download failed. */
  datatype Message = Message(
    kind: MessageType,
    content: Option<string>,
    timestamp: int,
    data: RawMessage,
    isFromMe: bool,
    isReplied: bool)

  datatype Chat = Chat(chatId: string, status: ChatStatus, messages: seq<Message>)

  /** The service's `chats` map. */
  type Registry = map<string, Chat>

  /** One inbound message together with what the environment supplies while
      it is filed: the clock reading and whether the media download worked. */
  datatype Delivery = Delivery(raw: RawMessage, now: int, downloaded: bool)

  /** What `syncMessageChat` lets its callback decide: the chat's status. */
  type Callback = (Message, Chat) -> ChatStatus

  /** Every chat is filed under its own id. */
  ghost predicate WellFormed(reg: Registry) {
    forall k :: k in reg ==> reg[k].chatId == k
  }

  /** The `MessageType` enum's string value, which is also the payload key. */
  function KeyOf(t: MessageType): string {
    match t
    case Conversation => "conversation"
    case Image => "imageMessage"
    case Video => "videoMessage"
    case Audio => "audioMessage"
    case Document => "documentMessage"
    case Location => "locationMessage"
    case Contact => "contactMessage"
    case Reaction => "reactionMessage"
    case ExtendedText => "extendedTextMessage"
    case Unknown => "unknown"
  }

  /** The `mapMessageType` table of `identifyMessageType`: nine recognised keys. */
  function Recognise(key: string): Option<MessageType> {
    match key
    case "conversation" => Some(Conversation)
    case "imageMessage" => Some(Image)
    case "videoMessage" => Some(Video)
    case "audioMessage" => Some(Audio)
    case "documentMessage" => Some(Document)
    case "locationMessage" => Some(Location)
    case "contactMessage" => Some(Contact)
    case "reactionMessage" => Some(Reaction)
    case "extendedTextMessage" => Some(ExtendedText)
    case _ => None
  }

  /** The table and the enum agree: each recognised key is the string value
      of the kind it maps to, and every kind but `Unknown` has its key. */
  lemma RecogniseKeyOf(t: MessageType, key: string)
    ensures t != Unknown ==> Recognise(KeyOf(t)) == Some(t)
    ensures Recognise(key) == Some(t) ==> KeyOf(t) == key && t != Unknown
  {
  }

  /** `Object.keys(msg.message).find(key => key in mapMessageType)`: the index
      of the first recognised key. */
  function FirstRecognised(entries: seq<(string, Field)>, from: nat): (r: Option<nat>)
    requires from <= |entries|
    ensures r.Some? ==> from <= r.value < |entries| && Recognise(entries[r.value].0).Some?
    ensures forall i :: from <= i < |entries| && (r.None? || i < r.value) ==> Recognise(entries[i].0).None?
    decreases |entries| - from
  {
    if from == |entries| then None
    else if Recognise(entries[from].0).Some? then Some(from)
    else FirstRecognised(entries, from + 1)
  }

  /** `identifyMessageType`: total; `Unknown` without a payload or without a
      recognised key. */
  function IdentifyMessageType(m: RawMessage): (t: MessageType)
    ensures m.message.None? ==> t == Unknown
    ensures t == Unknown <==> m.message.None? || forall i :: 0 <= i < |m.message.value| ==> Recognise(m.message.value[i].0).None?
  {
    match m.message
    case None => Unknown
    case Some(entries) =>
      match FirstRecognised(entries, 0)
      case None => Unknown
      case Some(i) =>
        RecogniseKeyOf(Unknown, entries[i].0);
        Recognise(entries[i].0).value
  }

  /** The kind is decided by the first recognised key in key order, whatever
      follows it. */
  lemma IdentifyFirstKey(m: RawMessage, i: nat)
    requires m.message.Some? && i < |m.message.value|
    requires Recognise(m.message.value[i].0).Some?
    requires forall j :: 0 <= j < i ==> Recognise(m.message.value[j].0).None?
    ensures IdentifyMessageType(m) == Recognise(m.message.value[i].0).value
  {
    var r := FirstRecognised(m.message.value, 0);
    assert r == Some(i);
  }

  predicate IsMediaMessage(t: MessageType) {
    t == Image || t == Video || t == Audio || t == Document
  }

  /** File extension for a media kind; `bin` for anything else. */
  function MediaExtension(t: MessageType): (e: string)
    ensures e == "bin" <==> !IsMediaMessage(t)
    ensures '.' !in e && '/' !in e
  {
    match t
    case Image => "jpeg"
    case Video => "mp4"
    case Audio => "mp3"
    case Document => "pdf"
    case _ => "bin"
  }

  const MediaDir: string := "./medias/"

  /** `getMediaFilename`: `./medias/<message id>.<extension>`. */
  function MediaFilename(m: RawMessage, t: MessageType): (f: string)
    ensures StartsWith(f, MediaDir)
    ensures EndsWith(f, "." + MediaExtension(t))
    ensures |f| == |MediaDir| + |m.key.id| + 1 + |MediaExtension(t)|
    ensures f[|MediaDir|..|MediaDir| + |m.key.id|] == m.key.id
  {
    var f := MediaDir + m.key.id + "." + MediaExtension(t);
    assert f[..|MediaDir|] == MediaDir;
    assert f[|f| - |MediaExtension(t)| - 1..] == "." + MediaExtension(t);
    f
  }

  /** Two messages of one kind share a media file only if they share an id;
      one id never names two media files with different extensions. */
  lemma MediaFilenameInjective(m1: RawMessage, m2: RawMessage, t1: MessageType, t2: MessageType)
    requires MediaFilename(m1, t1) == MediaFilename(m2, t2)
    ensures m1.key.id == m2.key.id ==> MediaExtension(t1) == MediaExtension(t2)
    ensures MediaExtension(t1) == MediaExtension(t2) ==> m1.key.id == m2.key.id
  {
    var f := MediaFilename(m1, t1);
    if m1.key.id == m2.key.id {
      var n := |MediaDir| + |m1.key.id| + 1;
      assert f == MediaDir + m1.key.id + "." + MediaExtension(t1);
      assert f == MediaDir + m2.key.id + "." + MediaExtension(t2);
      assert f[n..] == MediaExtension(t1);
      assert f[n..] == MediaExtension(t2);
    }
  }

  /** The value under `key`, `null` when the key is missing. */
  function FieldOf(entries: seq<(string, Field)>, key: string): Field {
    if entries == [] then Null
    else if entries[0].0 == key then entries[0].1
    else FieldOf(entries[1..], key)
  }

  function Payload(m: RawMessage): seq<(string, Field)> {
    m.message.GetOr([])
  }

  /** `payload.text || ""`: throws when the payload itself is `null`. */
  function TextOf(f: Field): Result<string> {
    match f
    case Null => Failure("TypeError: cannot read property 'text' of null")
    case Str(_) => Success("")
    case Obj(text) => Success(text.GetOr(""))
  }

  /**
    Content extraction of `syncMessageChat`: the text of text-like kinds, the
    saved file for media kinds (absent when the download failed) and the empty
    string otherwise. It fails only where the source dereferences a `null`
    payload.
   */
  function ExtractContent(d: Delivery): (r: Result<Option<string>>)
    ensures var t := IdentifyMessageType(d.raw);
            r.Failure? <==> (t == ExtendedText || t == Reaction) && FieldOf(Payload(d.raw), KeyOf(t)) == Null
    ensures r.Success? && r.value.None? <==> IsMediaMessage(IdentifyMessageType(d.raw)) && !d.downloaded
    ensures var t := IdentifyMessageType(d.raw);
            IsMediaMessage(t) && d.downloaded ==> r == Success(Some(MediaFilename(d.raw, t)))
    ensures var t := IdentifyMessageType(d.raw);
            var f := FieldOf(Payload(d.raw), KeyOf(t));
            (t == ExtendedText || t == Reaction) && f.Obj? ==> r == Success(Some(f.text.GetOr("")))
    ensures var t := IdentifyMessageType(d.raw);
            var f := FieldOf(Payload(d.raw), KeyOf(t));
            (t == ExtendedText || t == Reaction) && f.Str? ==> r == Success(Some(""))
    ensures var t := IdentifyMessageType(d.raw);
            var f := FieldOf(Payload(d.raw), KeyOf(t));
            t == Conversation ==> r == Success(Some(if f.Str? then f.s else ""))
    ensures var t := IdentifyMessageType(d.raw);
            t == Location || t == Contact || t == Unknown ==> r == Success(Some(""))
  {
    var t := IdentifyMessageType(d.raw);
    var entries := Payload(d.raw);
    if t == ExtendedText || t == Reaction then
      match TextOf(FieldOf(entries, KeyOf(t)))
      case Success(s) => Success(Some(s))
      case Failure(e) => Failure(e)
    else if t == Conversation then
      match FieldOf(entries, KeyOf(t))
      case Str(s) => Success(Some(s))
      case _ => Success(Some(""))
    else if IsMediaMessage(t) then
      if d.downloaded then Success(Some(MediaFilename(d.raw, t))) else Success(None)
    else Success(Some(""))
  }

  /** `message.messageTimestamp || now`: a missing or zero timestamp reads the clock. */
  function ArrivalTime(d: Delivery): (t: int)
    ensures d.raw.messageTimestamp.Some? && d.raw.messageTimestamp.value != 0 ==> t == d.raw.messageTimestamp.value
    ensures d.raw.messageTimestamp.None? || d.raw.messageTimestamp == Some(0) ==> t == d.now
  {
    match d.raw.messageTimestamp
    case Some(t) => if t != 0 then t else d.now
    case None => d.now
  }

  /** Whether filing this delivery runs to the end (content extraction did not throw). */
  predicate Succeeds(d: Delivery) {
    ExtractContent(d).Success?
  }

  /** The message a successful delivery appends. */
  function NewMessage(d: Delivery): (msg: Message)
    requires Succeeds(d)
    ensures !msg.isReplied
    ensures msg.isFromMe == d.raw.key.fromMe.GetOr(false)
    ensures msg.kind == IdentifyMessageType(d.raw) && msg.data == d.raw
    ensures msg.content == ExtractContent(d).value && msg.timestamp == ArrivalTime(d)
  {
    Message(IdentifyMessageType(d.raw), ExtractContent(d).value, ArrivalTime(d), d.raw,
            d.raw.key.fromMe.GetOr(false), false)
  }

  function JidOf(d: Delivery): string {
    d.raw.key.remoteJid
  }

  /** The chat's message history, empty for an unseen id. */
  function History(reg: Registry, k: string): seq<Message> {
    if k in reg then reg[k].messages else []
  }

  /** The chat that receives `d`: the registered one, or a new empty one. */
  function ChatFor(reg: Registry, k: string): Chat {
    if k in reg then reg[k] else Chat(k, AwaitingReply, [])
  }

  /** The outcome of filing one message: the registry after it and, when it
      did not throw, the id of the chat it went to. */
  datatype Filed = Filed(registry: Registry, chatId: Option<string>)

  /**
    One iteration of `syncMessageChat`: find or create the chat, reset its
    status, classify and extract, append, run the callback. When extraction
    throws, the created chat and the status reset stay, nothing is appended
    and the message counts as failed.
   */
  function SyncOne(reg: Registry, d: Delivery, cb: Callback): (r: Filed)
    ensures r.registry.Keys == reg.Keys + {JidOf(d)}
    ensures forall k :: k in reg && k != JidOf(d) ==> r.registry[k] == reg[k]
    ensures r.chatId == (if Succeeds(d) then Some(JidOf(d)) else None)
    ensures History(r.registry, JidOf(d))
            == History(reg, JidOf(d)) + (if Succeeds(d) then [NewMessage(d)] else [])
    ensures !Succeeds(d) ==> r.registry[JidOf(d)].status == AwaitingReply
    ensures r.registry[JidOf(d)].chatId == ChatFor(reg, JidOf(d)).chatId
    ensures WellFormed(reg) ==> WellFormed(r.registry)
  {
    var k := JidOf(d);
    var chat := ChatFor(reg, k).(status := AwaitingReply);
    if !Succeeds(d) then Filed(reg[k := chat], None)
    else
      var msg := NewMessage(d);
      var appended := chat.(messages := chat.messages + [msg]);
      Filed(reg[k := appended.(status := cb(msg, appended))], Some(k))
  }

  /** A filed text message carries the text of its payload: the object's
      `text` for an extended-text or reaction message, the string itself for
      a conversation message. */
  lemma FiledTextContent(reg: Registry, d: Delivery, cb: Callback, x: string)
    requires var t := IdentifyMessageType(d.raw);
             var f := FieldOf(Payload(d.raw), KeyOf(t));
             ((t == ExtendedText || t == Reaction) && f == Obj(Some(x))) || (t == Conversation && f == Str(x))
    ensures var h := History(SyncOne(reg, d, cb).registry, JidOf(d));
            |h| > 0 && h[|h| - 1].content == Some(x)
  {
    assert Succeeds(d);
  }

  /** The outcome of a batch: the registry after it and one chat id per
      message that was filed successfully, in input order. */
  datatype Synced = Synced(registry: Registry, chatIds: seq<string>)

  function JidsOf(batch: seq<Delivery>): set<string> {
    set d | d in batch :: JidOf(d)
  }

  lemma JidsOfSplit(batch: seq<Delivery>)
    requires batch != []
    ensures JidsOf(batch) == {JidOf(batch[0])} + JidsOf(batch[1..])
  {
    assert forall d :: d in batch <==> d == batch[0] || d in batch[1..];
  }

  /**
    `syncMessageChat` over a batch, message after message. Every message's
    chat ends up registered and chats outside the batch are left alone.
   */
  function SyncBatch(reg: Registry, batch: seq<Delivery>, cb: Callback): (r: Synced)
    ensures r.registry.Keys == reg.Keys + JidsOf(batch)
    ensures forall k :: k in reg && k !in JidsOf(batch) ==> r.registry[k] == reg[k]
    ensures forall k :: k in r.chatIds ==> k in JidsOf(batch)
    ensures WellFormed(reg) ==> WellFormed(r.registry)
    decreases |batch|
  {
    if batch == [] then Synced(reg, [])
    else
      var one := SyncOne(reg, batch[0], cb);
      var rest := SyncBatch(one.registry, batch[1..], cb);
      JidsOfSplit(batch);
      Synced(rest.registry, (if one.chatId.Some? then [one.chatId.value] else []) + rest.chatIds)
  }

  /** The ids of the successfully filed messages, in input order: a chat
      appears once per message it received, failures are dropped. */
  function SucceededIds(batch: seq<Delivery>): seq<string> {
    if batch == [] then []
    else (if Succeeds(batch[0]) then [JidOf(batch[0])] else []) + SucceededIds(batch[1..])
  }

  /** A chat that receives a message in the batch is among the ids returned. */
  lemma {:induction false} SucceededIdsOfAppended(batch: seq<Delivery>, k: string)
    requires Appended(batch, k) != []
    ensures k in SucceededIds(batch)
  {
    if AppendedOne(batch[0], k) == [] {
      SucceededIdsOfAppended(batch[1..], k);
    }
  }

  /** What filing `d` appends to chat `k`: its new message, or nothing. */
  function AppendedOne(d: Delivery, k: string): seq<Message> {
    if JidOf(d) == k && Succeeds(d) then [NewMessage(d)] else []
  }

  /** The messages of a batch that reach chat `k`, in arrival order. */
  function Appended(batch: seq<Delivery>, k: string): seq<Message> {
    if batch == [] then [] else AppendedOne(batch[0], k) + Appended(batch[1..], k)
  }

  /** A successfully filed message reaches its own chat. */
  lemma {:induction false} AppendedHas(batch: seq<Delivery>, i: nat)
    requires i < |batch| && Succeeds(batch[i])
    ensures NewMessage(batch[i]) in Appended(batch, JidOf(batch[i]))
  {
    var k := JidOf(batch[i]);
    if i > 0 {
      assert batch[1..][i - 1] == batch[i];
      AppendedHas(batch[1..], i - 1);
      assert Appended(batch, k) == AppendedOne(batch[0], k) + Appended(batch[1..], k);
    } else {
      assert AppendedOne(batch[0], k) == [NewMessage(batch[0])];
    }
  }

  /** The position of the last message of a batch addressed to chat `k`, if any. */
  function LastIndex(batch: seq<Delivery>, k: string): (r: Option<nat>)
    ensures r.Some? <==> k in JidsOf(batch)
    ensures r.Some? ==> r.value < |batch| && JidOf(batch[r.value]) == k
    ensures r.Some? ==> forall j :: r.value < j < |batch| ==> JidOf(batch[j]) != k
  {
    if batch == [] then None
    else
      JidsOfSplit(batch);
      match LastIndex(batch[1..], k)
      case Some(i) =>
        assert forall j :: i + 1 < j < |batch| ==> batch[j] == batch[1..][j - 1];
        Some(i + 1)
      case None =>
        assert forall j :: 0 < j < |batch| ==> batch[j] in batch[1..];
        if JidOf(batch[0]) == k then Some(0) else None
  }

  /** The last message for `k` is in the tail when the tail addresses `k`, and is the head otherwise. */
  lemma LastIndexStep(batch: seq<Delivery>, k: string)
    requires batch != [] && k in JidsOf(batch)
    ensures k in JidsOf(batch[1..]) ==> batch[LastIndex(batch, k).value] == batch[1..][LastIndex(batch[1..], k).value]
    ensures k !in JidsOf(batch[1..]) ==> batch[LastIndex(batch, k).value] == batch[0]
  {
    if k in JidsOf(batch[1..]) {
      var j := LastIndex(batch[1..], k).value;
      assert LastIndex(batch, k) == Some(j + 1);
    } else {
      assert LastIndex(batch, k) == Some(0);
    }
  }

  /** `syncMessageChat` returns one chat per successful message, in input order. */
  lemma {:induction false} SyncBatchReturnsSucceeded(reg: Registry, batch: seq<Delivery>, cb: Callback)
    ensures SyncBatch(reg, batch, cb).chatIds == SucceededIds(batch)
    decreases |batch|
  {
    if batch != [] {
      SyncBatchReturnsSucceeded(SyncOne(reg, batch[0], cb).registry, batch[1..], cb);
    }
  }

  /** Filing one message appends it to its own chat and to no other. */
  lemma SyncOneHistory(reg: Registry, d: Delivery, cb: Callback, k: string)
    ensures History(SyncOne(reg, d, cb).registry, k) == History(reg, k) + AppendedOne(d, k)
  {
    if JidOf(d) != k {
      assert History(SyncOne(reg, d, cb).registry, k) == History(reg, k);
    }
  }

  lemma ConcatAssoc<T>(a: seq<T>, b: seq<T>, c: seq<T>)
    ensures (a + b) + c == a + (b + c)
  {
  }

  /** Each chat's history grows by exactly the batch's successful messages
      for it, appended at the end in arrival order. */
  lemma {:induction false} SyncBatchHistory(reg: Registry, batch: seq<Delivery>, cb: Callback, k: string)
    ensures History(SyncBatch(reg, batch, cb).registry, k) == History(reg, k) + Appended(batch, k)
    decreases |batch|
  {
    if batch != [] {
      var one := SyncOne(reg, batch[0], cb).registry;
      var before, first, later := History(reg, k), AppendedOne(batch[0], k), Appended(batch[1..], k);
      assert SyncBatch(reg, batch, cb).registry == SyncBatch(one, batch[1..], cb).registry;
      SyncBatchHistory(one, batch[1..], cb, k);
      SyncOneHistory(reg, batch[0], cb, k);
      assert Appended(batch, k) == first + later;
      ConcatAssoc(before, first, later);
    }
  }

  /** A new chat's history is exactly the batch's successful messages for it. */
  lemma NewChatHistory(reg: Registry, batch: seq<Delivery>, cb: Callback, k: string)
    requires k !in reg && k in JidsOf(batch)
    ensures k in SyncBatch(reg, batch, cb).registry
    ensures SyncBatch(reg, batch, cb).registry[k].messages == Appended(batch, k)
  {
    SyncBatchHistory(reg, batch, cb, k);
  }
}

=== FILE: connect.dfy ===
/**
  The `connection.update` handler of whatsapp-connect.service.ts: what one
  update makes the service do, and how the retry budget evolves over the
  sockets that successive reconnects create.
 */
module Connect {
  import opened Wrappers
  import opened Text

  /** The default retry budget of `connectToWhatsApp`. */
  const DefaultRetries: int := 5
  /** The delay before a budgeted reconnect, in milliseconds. */
  const RetryDelayMs: nat := 10000
  /** `DisconnectReason.loggedOut` of the Baileys library. */
  const LoggedOut: int := 401
  const RestartRequired: string := "(restart required)"

  datatype Connection = Open | Close | Connecting

  /** The error carried by a disconnect: its message and, when present, `output.statusCode`. */
  datatype DisconnectError = DisconnectError(message: string, statusCode: Option<int>)
  datatype Disconnect = Disconnect(error: Option<DisconnectError>)

  /** A `Partial<ConnectionState>`: every field may be absent. */
  datatype Update = Update(qr: Option<string>, connection: Option<Connection>, lastDisconnect: Option<Disconnect>)

  /** What the handler does with one update. */
  datatype Action =
    | ShowQr(qr: string)
      /** A new `connectToWhatsApp(budget)`, after `delayMs`. */
    | Reconnect(delayMs: nat, budget: int)
      /** Delete the stored credentials, then `connectToWhatsApp()`. */
    | WipeAndReconnect(budget: int)
    | Exit(code: int)
      /** The handler throws reading a missing `lastDisconnect.error`. */
    | Fault
      /** Nothing but a log line. */
    | LogOnly

  predicate IsRestart(e: DisconnectError) {
    Contains(e.message, RestartRequired)
  }

  predicate IsLogout(e: DisconnectError) {
    e.statusCode == Some(LoggedOut)
  }

  /** The update carries no QR code to show (absent or empty). */
  predicate NoQr(u: Update) {
    u.qr.None? || u.qr.value == []
  }

  /** A close without a QR code that carries a disconnect error. */
  predicate ClosesWithError(u: Update) {
    && NoQr(u)
    && u.connection == Some(Close)
    && u.lastDisconnect.Some? && u.lastDisconnect.value.error.Some?
  }

  /** A close that is neither a restart request nor a logout. */
  predicate IsPlainClose(u: Update) {
    && ClosesWithError(u)
    && !IsRestart(u.lastDisconnect.value.error.value)
    && !IsLogout(u.lastDisconnect.value.error.value)
  }

  /**
    The `connection.update` listener of a socket created with budget
    `retryCount`. A QR code wins over everything; on a close, a restart
    request reconnects at once with a fresh budget, a logout wipes the
    credentials and reconnects with a fresh budget, any other close spends
    one unit of budget after a delay, and an exhausted budget exits with
    code 1.
   */
  function OnConnectionUpdate(u: Update, retryCount: int): (a: Action)
    ensures a.ShowQr? <==> u.qr.Some? && u.qr.value != []
    ensures a.ShowQr? ==> a.qr == u.qr.value
    ensures ClosesWithError(u) && IsRestart(u.lastDisconnect.value.error.value) ==> a == Reconnect(0, DefaultRetries)
    ensures ClosesWithError(u) && !IsRestart(u.lastDisconnect.value.error.value) && IsLogout(u.lastDisconnect.value.error.value)
            ==> a == WipeAndReconnect(DefaultRetries)
    ensures a.Fault? <==> && NoQr(u) && u.connection == Some(Close)
                          && (u.lastDisconnect.None? || u.lastDisconnect.value.error.None?)
    ensures a.Reconnect? && a.delayMs == 0 ==> a.budget == DefaultRetries
    ensures a.Reconnect? && a.delayMs != 0 ==> a.delayMs == RetryDelayMs && 0 <= a.budget == retryCount - 1
    ensures a.WipeAndReconnect? ==> a.budget == DefaultRetries
    ensures a.Exit? ==> a.code == 1 && retryCount == 0 && IsPlainClose(u)
    ensures IsPlainClose(u) && retryCount >= 0 ==> a.Exit? || (a.Reconnect? && a.delayMs == RetryDelayMs)
    ensures u.connection != Some(Close) && NoQr(u) ==> a == LogOnly
  {
    if u.qr.Some? && u.qr.value != [] then ShowQr(u.qr.value)
    else if u.connection == Some(Close) then
      match u.lastDisconnect
      case None => Fault
      case Some(d) =>
        match d.error
        case None => Fault
        case Some(e) =>
          if IsRestart(e) then Reconnect(0, DefaultRetries)
          else
            var shouldReconnect := e.statusCode != Some(LoggedOut);
            if shouldReconnect && retryCount > 0 then Reconnect(RetryDelayMs, retryCount - 1)
            else if e.statusCode == Some(LoggedOut) then WipeAndReconnect(DefaultRetries)
            else if retryCount == 0 then Exit(1)
            else LogOnly
    else LogOnly
  }

  /** A logout always wipes the credentials and restores the full budget. */
  lemma LogoutResets(u: Update, retryCount: int, e: DisconnectError)
    requires NoQr(u) && u.connection == Some(Close) && u.lastDisconnect == Some(Disconnect(Some(e)))
    requires IsLogout(e) && !IsRestart(e)
    ensures OnConnectionUpdate(u, retryCount) == WipeAndReconnect(DefaultRetries)
  {
  }

  /** A restart request reconnects at once with the full budget, even when it also reports a logout. */
  lemma RestartWins(u: Update, retryCount: int, e: DisconnectError)
    requires NoQr(u) && u.connection == Some(Close) && u.lastDisconnect == Some(Disconnect(Some(e)))
    requires IsRestart(e)
    ensures OnConnectionUpdate(u, retryCount) == Reconnect(0, DefaultRetries)
  {
  }

  /** The budget the next socket is created with. */
  function NextBudget(a: Action, budget: int): int {
    match a
    case Reconnect(_, b) => b
    case WipeAndReconnect(b) => b
    case _ => budget
  }

  /** Whether the action ends this chain of sockets (no reconnect is ever scheduled after it). */
  predicate Ends(a: Action) {
    a.Exit? || a.Fault?
  }

  /**
    The actions taken over a sequence of updates, starting from a socket
    with `budget`: a reconnect hands the rest of the updates to the new
    socket and its budget, a QR code or a log line keeps the socket, and an
    exit or a fault ends the chain.
   */
  function Drive(budget: int, updates: seq<Update>): (acts: seq<Action>)
    ensures |acts| <= |updates|
    ensures forall i :: 0 <= i < |acts| - 1 ==> !Ends(acts[i])
    ensures |acts| < |updates| ==> acts != [] && Ends(acts[|acts| - 1])
    decreases |updates|
  {
    if updates == [] then []
    else
      var a := OnConnectionUpdate(updates[0], budget);
      if Ends(a) then [a]
      else [a] + Drive(NextBudget(a, budget), updates[1..])
  }

  /** The budget an action hands on, if it creates a socket. */
  predicate BudgetWithin(a: Action, lo: int, hi: int) {
    (a.Reconnect? ==> lo <= a.budget <= hi) && (a.WipeAndReconnect? ==> lo <= a.budget <= hi)
  }

  /** Starting from a budget in 0..5, every socket is created with a budget in 0..5. */
  lemma {:induction false} DriveBudgetBounded(budget: int, updates: seq<Update>)
    requires 0 <= budget <= DefaultRetries
    ensures forall i :: 0 <= i < |Drive(budget, updates)| ==> BudgetWithin(Drive(budget, updates)[i], 0, DefaultRetries)
    decreases |updates|
  {
    if updates != [] {
      var a := OnConnectionUpdate(updates[0], budget);
      if !Ends(a) {
        DriveBudgetBounded(NextBudget(a, budget), updates[1..]);
      }
    }
  }

  /** `n` delayed reconnects spending the budget down from `n` to 0. */
  function Backoff(n: nat): (acts: seq<Action>)
    ensures |acts| == n
    ensures forall i :: 0 <= i < n ==> acts[i] == Reconnect(RetryDelayMs, n - 1 - i)
  {
    if n == 0 then [] else [Reconnect(RetryDelayMs, n - 1)] + Backoff(n - 1)
  }

  /**
    Plain closes spend the budget one unit at a time: with budget `n`,
    `n + 1` of them give `n` delayed reconnects and then exit code 1.
   */
  lemma {:induction false} DriveExhausts(n: nat, updates: seq<Update>)
    requires |updates| == n + 1
    requires forall i :: 0 <= i < |updates| ==> IsPlainClose(updates[i])
    ensures Drive(n, updates) == Backoff(n) + [Exit(1)]
  {
    if n > 0 {
      DriveExhausts(n - 1, updates[1..]);
    }
  }

  /** With the default budget, the sixth consecutive plain close ends the process. */
  lemma DefaultBudgetExample(updates: seq<Update>)
    requires |updates| == 6
    requires forall i :: 0 <= i < 6 ==> IsPlainClose(updates[i])
    ensures |Drive(DefaultRetries, updates)| == 6
    ensures forall i :: 0 <= i < 5 ==> Drive(DefaultRetries, updates)[i].Reconnect?
    ensures Drive(DefaultRetries, updates)[5] == Exit(1)
  {
    DriveExhausts(5, updates);
  }
}

=== FILE: handler.dfy ===
/**
  The reply round of whatsapp-message-handler.service.ts: the ignore
  callback given to `syncMessageChat`, the context window and awaiting-reply
  set of `mapQuestionToContext`, the dispatch of `handleChat`, and
  `handleIncomingMessage`, which chains them for one inbound batch.
 */
module Handler {
  import opened Wrappers
  import opened Text
  import opened Chats
  import opened Protocol
  import opened Reactions

  const GroupSuffix: string := "@g.us"
  const Apology: string := "Desculpe, houve um erro ao processar sua resposta."
  const WindowSize: nat := 10

  /** The kinds the handler answers. */
  predicate IsSupported(t: MessageType) {
    t == ExtendedText || t == Conversation || t == Reaction
  }

  /** The three conditions under which the callback ignores a message. */
  predicate Ignores(msg: Message, chatId: string) {
    EndsWith(chatId, GroupSuffix) || msg.isFromMe || !IsSupported(msg.kind)
  }

  /**
    The callback `handleIncomingMessage` passes to `syncMessageChat`: a group
    chat, a self-authored message or an unsupported kind sets `IGNORED`;
    otherwise the status is left as it is.
   */
  function IgnoreStatus(msg: Message, chat: Chat): (s: ChatStatus)
    ensures s == Ignored <==> Ignores(msg, chat.chatId) || chat.status == Ignored
    ensures s != Ignored ==> s == chat.status
  {
    var s1 := if EndsWith(chat.chatId, GroupSuffix) then Ignored else chat.status;
    var s2 := if msg.isFromMe then Ignored else s1;
    if !IsSupported(msg.kind) then Ignored else s2
  }

  /** The status a chat is left in when `d` is the last message of the batch for it. */
  function StatusAfter(d: Delivery): ChatStatus {
    if Succeeds(d) && Ignores(NewMessage(d), JidOf(d)) then Ignored else AwaitingReply
  }

  /** Filing one message leaves its chat in the status that message decides. */
  lemma SyncOneStatus(reg: Registry, d: Delivery)
    requires WellFormed(reg)
    ensures SyncOne(reg, d, IgnoreStatus).registry[JidOf(d)].status == StatusAfter(d)
  {
  }

  /**
    Every message resets its chat to `AWAITING_REPLY` before the callback
    runs, so after a batch each chat's status is decided by that chat's last
    message alone: `IGNORED` when it was filed and is ignored, `AWAITING_REPLY`
    otherwise.
   */
  lemma {:induction false} SyncStatusDecidedByLast(reg: Registry, batch: seq<Delivery>, k: string)
    requires WellFormed(reg)
    requires k in JidsOf(batch)
    ensures SyncBatch(reg, batch, IgnoreStatus).registry[k].status == StatusAfter(batch[LastIndex(batch, k).value])
    decreases |batch|
  {
    JidsOfSplit(batch);
    var one := SyncOne(reg, batch[0], IgnoreStatus);
    assert SyncBatch(reg, batch, IgnoreStatus).registry == SyncBatch(one.registry, batch[1..], IgnoreStatus).registry;
    LastIndexStep(batch, k);
    if k in JidsOf(batch[1..]) {
      SyncStatusDecidedByLast(one.registry, batch[1..], k);
    } else {
      SyncOneStatus(reg, batch[0]);
    }
  }

  /** Who a context line is attributed to: "me", or the sender's push name. */
  datatype Sender = Me | Peer(pushName: Option<string>)

  /** One rendered message; the timestamp's text form is not modelled. */
  datatype Line = Line(timestamp: int, sender: Sender, content: Option<string>)

  /** The question sent to the backend: the recent window, then the messages
      still to answer. The fixed instruction text is not modelled. */
  datatype Context = Context(window: seq<Line>, pending: seq<Line>)

  function Render(m: Message): (l: Line)
    ensures l.sender == Me <==> m.isFromMe
    ensures l.timestamp == m.timestamp && l.content == m.content
  {
    Line(m.timestamp, if m.isFromMe then Me else Peer(m.data.pushName), m.content)
  }

  function RenderAll(ms: seq<Message>): (ls: seq<Line>)
    ensures |ls| == |ms| && forall i :: 0 <= i < |ms| ==> ls[i] == Render(ms[i])
  {
    seq(|ms|, i requires 0 <= i < |ms| => Render(ms[i]))
  }

  /** `messages.filter(msg => msg.isReplied === false)`, as positions in the
      history (the source keeps references to the same objects). */
  function AwaitingIndices(msgs: seq<Message>, from: nat): (idx: seq<nat>)
    requires from <= |msgs|
    ensures forall j :: 0 <= j < |idx| ==> from <= idx[j] < |msgs| && !msgs[idx[j]].isReplied
    ensures forall j, j' :: 0 <= j < j' < |idx| ==> idx[j] < idx[j']
    ensures forall i :: from <= i < |msgs| && !msgs[i].isReplied ==> i in idx
    decreases |msgs| - from
  {
    if from == |msgs| then []
    else (if !msgs[from].isReplied then [from] else []) + AwaitingIndices(msgs, from + 1)
  }

  /** `awaitingReply.filter(msg => !msg.isFromMe)`. */
  function PendingOf(msgs: seq<Message>, idx: seq<nat>): seq<Message>
    requires forall j :: 0 <= j < |idx| ==> idx[j] < |msgs|
  {
    if idx == [] then []
    else (if !msgs[idx[0]].isFromMe then [msgs[idx[0]]] else []) + PendingOf(msgs, idx[1..])
  }

  /** The counterpart's messages not yet answered, in order: the reference
      the pending block is checked against. */
  function Unanswered(msgs: seq<Message>): seq<Message> {
    if msgs == [] then []
    else (if !msgs[0].isReplied && !msgs[0].isFromMe then [msgs[0]] else []) + Unanswered(msgs[1..])
  }

  lemma {:induction false} PendingOfAppend(msgs: seq<Message>, a: seq<nat>, b: seq<nat>)
    requires forall j :: 0 <= j < |a| ==> a[j] < |msgs|
    requires forall j :: 0 <= j < |b| ==> b[j] < |msgs|
    ensures PendingOf(msgs, a + b) == PendingOf(msgs, a) + PendingOf(msgs, b)
  {
    if a == [] {
      assert a + b == b;
    } else {
      var x := if !msgs[a[0]].isFromMe then [msgs[a[0]]] else [];
      assert (a + b)[0] == a[0];
      assert (a + b)[1..] == a[1..] + b;
      assert PendingOf(msgs, a + b) == x + PendingOf(msgs, a[1..] + b);
      PendingOfAppend(msgs, a[1..], b);
      ConcatAssoc(x, PendingOf(msgs, a[1..]), PendingOf(msgs, b));
    }
  }

  lemma {:induction false} PendingIsUnanswered(msgs: seq<Message>, from: nat)
    requires from <= |msgs|
    ensures PendingOf(msgs, AwaitingIndices(msgs, from)) == Unanswered(msgs[from..])
    decreases |msgs| - from
  {
    if from < |msgs| {
      var head: seq<nat> := if !msgs[from].isReplied then [from] else [];
      var rest := AwaitingIndices(msgs, from + 1);
      var first := if !msgs[from].isReplied && !msgs[from].isFromMe then [msgs[from]] else [];
      assert AwaitingIndices(msgs, from) == head + rest;
      PendingOfAppend(msgs, head, rest);
      assert PendingOf(msgs, head) == first;
      PendingIsUnanswered(msgs, from + 1);
      UnansweredStep(msgs, from);
    }
  }

  lemma UnansweredStep(msgs: seq<Message>, from: nat)
    requires from < |msgs|
    ensures Unanswered(msgs[from..])
            == (if !msgs[from].isReplied && !msgs[from].isFromMe then [msgs[from]] else []) + Unanswered(msgs[from + 1..])
  {
    assert msgs[from..][1..] == msgs[from + 1..];
  }

  /** What `mapQuestionToContext` returns: the question and `awaitingReply`. */
  datatype Question = Question(context: Context, awaiting: seq<nat>)

  /**
    `mapQuestionToContext`: the awaiting-reply positions, the last ten
    messages as the window, and the awaiting messages not authored by the
    account as the pending block.
   */
  function MapQuestionToContext(chat: Chat): (q: Question)
    ensures |q.context.window| == if |chat.messages| < WindowSize then |chat.messages| else WindowSize
  {
    var msgs := chat.messages;
    var awaiting := AwaitingIndices(msgs, 0);
    Question(Context(Window(msgs), RenderAll(PendingOf(msgs, awaiting))), awaiting)
  }

  /** `messages.slice(-10)`, rendered: the last min(10, n) messages, in order. */
  function Window(msgs: seq<Message>): (w: seq<Line>)
    ensures |w| == if |msgs| < WindowSize then |msgs| else WindowSize
    ensures forall j :: 0 <= j < |w| ==> w[j] == Render(msgs[|msgs| - |w| + j])
  {
    var start := if |msgs| > WindowSize then |msgs| - WindowSize else 0;
    RenderedSuffix(msgs, start);
    RenderAll(msgs[start..])
  }

  /**
    The awaiting set is every not-yet-replied message, self-authored ones
    included, in order; the window is the last min(10, n) messages in order;
    the pending block renders the counterpart's unanswered messages.
   */
  lemma MapQuestionToContextSpec(chat: Chat)
    ensures var q := MapQuestionToContext(chat);
            && (forall j :: 0 <= j < |q.awaiting| ==> q.awaiting[j] < |chat.messages| && !chat.messages[q.awaiting[j]].isReplied)
            && (forall i :: 0 <= i < |chat.messages| && !chat.messages[i].isReplied ==> i in q.awaiting)
            && (forall j, j' :: 0 <= j < j' < |q.awaiting| ==> q.awaiting[j] < q.awaiting[j'])
    ensures var q := MapQuestionToContext(chat);
            && |q.context.window| == (if |chat.messages| < WindowSize then |chat.messages| else WindowSize)
            && forall j :: 0 <= j < |q.context.window| ==>
                 q.context.window[j] == Render(chat.messages[|chat.messages| - |q.context.window| + j])
    ensures MapQuestionToContext(chat).context.pending == RenderAll(Unanswered(chat.messages))
  {
    QuestionAwaiting(chat);
    QuestionWindow(chat);
    QuestionPending(chat);
  }

  lemma QuestionAwaiting(chat: Chat)
    ensures var q := MapQuestionToContext(chat);
            && (forall j :: 0 <= j < |q.awaiting| ==> q.awaiting[j] < |chat.messages| && !chat.messages[q.awaiting[j]].isReplied)
            && (forall i :: 0 <= i < |chat.messages| && !chat.messages[i].isReplied ==> i in q.awaiting)
            && (forall j, j' :: 0 <= j < j' < |q.awaiting| ==> q.awaiting[j] < q.awaiting[j'])
  {
    assert MapQuestionToContext(chat).awaiting == AwaitingIndices(chat.messages, 0);
  }

  lemma QuestionWindow(chat: Chat)
    ensures var q := MapQuestionToContext(chat);
            && |q.context.window| == (if |chat.messages| < WindowSize then |chat.messages| else WindowSize)
            && forall j :: 0 <= j < |q.context.window| ==>
                 q.context.window[j] == Render(chat.messages[|chat.messages| - |q.context.window| + j])
  {
    assert MapQuestionToContext(chat).context.window == Window(chat.messages);
  }

  /** Rendering a suffix renders the last messages, in order. */
  lemma RenderedSuffix(msgs: seq<Message>, start: nat)
    requires start <= |msgs|
    ensures var w := RenderAll(msgs[start..]);
            forall j :: 0 <= j < |w| ==> w[j] == Render(msgs[|msgs| - |w| + j])
  {
    var w := RenderAll(msgs[start..]);
    forall j | 0 <= j < |w| ensures w[j] == Render(msgs[|msgs| - |w| + j]) {
      assert msgs[start..][j] == msgs[start + j];
    }
  }

  lemma QuestionPending(chat: Chat)
    ensures MapQuestionToContext(chat).context.pending == RenderAll(Unanswered(chat.messages))
  {
    PendingIsUnanswered(chat.messages, 0);
    assert chat.messages[0..] == chat.messages;
  }

  datatype Presence = Available | Composing

  /** What the handler asks the transport to do. */
  datatype Effect =
    | SetPresence(presence: Presence, to: string)
    | MarkRead(keys: seq<MessageKey>)
    | SendText(to: string, text: string, quoted: RawMessage)
    | SendReaction(to: string, emoji: string, key: MessageKey)

  /**
    The three dispatch branches of `handleChat`, all aimed at the chat's last
    message: a reaction with the glyph for the response, a text reply quoting
    it, or the fixed apology quoting it.
   */
  function Dispatch(chatId: string, last: Message, reply: Reply): (e: Effect)
    ensures e.SendReaction? <==> Trim(reply.kind) == "reaction"
    ensures e.SendReaction? ==> e == SendReaction(chatId, Emoji(reply.response), last.data.key)
    ensures e.SendText? ==> e.to == chatId && e.quoted == last.data
    ensures e.SendText? ==> e.text == if Trim(reply.kind) == "text" then reply.response else Apology
    ensures (e.SendText? || e.SendReaction?) && e.to == chatId
  {
    if Trim(reply.kind) == "reaction" then SendReaction(chatId, Emoji(reply.response), last.data.key)
    else if Trim(reply.kind) == "text" then SendText(chatId, reply.response, last.data)
    else SendText(chatId, Apology, last.data)
  }

  /** A reply that does not follow the grammar always ends in the apology. */
  lemma DispatchMalformed(chatId: string, last: Message, text: string)
    requires !Contains(text, TypeTag)
    ensures Dispatch(chatId, last, ParseResponse(text)) == SendText(chatId, Apology, last.data)
  {
    ParseWithoutTypeTag(text);
    WordHasNoSpaceEnds(Fallback.kind);
  }

  /** The reaction example: `:like:` is sent as a thumbs-up on the last message. */
  lemma DispatchLikeExample(chatId: string, last: Message)
    ensures Dispatch(chatId, last, ParseResponse("- type: reaction\n- response: :like:"))
            == SendReaction(chatId, "👍", last.data.key)
  {
    ParseReactionExample();
    ReactionKindTrimmed();
    EmojiExamples();
    assert Dispatch(chatId, last, Reply("reaction", ":like:")) == SendReaction(chatId, Emoji(":like:"), last.data.key);
  }

  lemma ReactionKindTrimmed()
    ensures Trim("reaction") == "reaction"
  {
    WordHasNoSpaceEnds("reaction");
  }

  /** Every message whose position is in `idx` marked as replied; nothing else changes. */
  function MarkReplied(msgs: seq<Message>, idx: seq<nat>): (r: seq<Message>)
    ensures |r| == |msgs|
    ensures forall i :: 0 <= i < |msgs| ==> r[i] == msgs[i].(isReplied := msgs[i].isReplied || i in idx)
  {
    seq(|msgs|, i requires 0 <= i < |msgs| => if i in idx then msgs[i].(isReplied := true) else msgs[i])
  }

  /** Marking changes only the `isReplied` flag, and sets it exactly at the listed positions. */
  lemma MarkRepliedFlags(msgs: seq<Message>, idx: seq<nat>)
    ensures var r := MarkReplied(msgs, idx);
            forall j :: 0 <= j < |msgs| ==>
              && r[j].isReplied == (msgs[j].isReplied || j in idx)
              && r[j].(isReplied := true) == msgs[j].(isReplied := true)
  {
    var r := MarkReplied(msgs, idx);
    forall j | 0 <= j < |msgs|
      ensures r[j].isReplied == (msgs[j].isReplied || j in idx)
      ensures r[j].(isReplied := true) == msgs[j].(isReplied := true)
    {
      assert r[j] == msgs[j].(isReplied := msgs[j].isReplied || j in idx);
    }
  }

  /** The result of one `handleChat` call: the chat after it, what it asked
      the transport to do, and the question it sent to the backend, if any. */
  datatype Round = Round(chat: Chat, effects: seq<Effect>, query: Option<Context>)

  /**
    `handleChat`, with the backend's reply as an input (`None` when the HTTP
    call or the reply's shape fails: the source throws before any state
    change).
   */
  function HandleChat(chat: Chat, reply: Option<string>): (r: Round)
    ensures chat.status != AwaitingReply ==> r == Round(chat, [], None)
    ensures r.query.None? ==> r.chat == chat
    ensures r.chat.chatId == chat.chatId
    ensures r.chat != chat ==> r.chat.status == Replied
  {
    if chat.status != AwaitingReply then Round(chat, [], None)
    else
      var q := MapQuestionToContext(chat);
      if |q.awaiting| == 0 then Round(chat, [SetPresence(Available, chat.chatId)], None)
      else
        match reply
        case None => Round(chat, [SetPresence(Available, chat.chatId), SetPresence(Composing, chat.chatId)], Some(q.context))
        case Some(text) => Answer(chat, q.awaiting, q.context, text)
  }

  /** `after` is `before` with exactly the positions in `awaiting` newly flagged replied. */
  predicate MarksExactly(before: seq<Message>, after: seq<Message>, awaiting: seq<nat>) {
    && |after| == |before|
    && forall j :: 0 <= j < |before| ==>
         && after[j].isReplied == (before[j].isReplied || j in awaiting)
         && after[j].(isReplied := true) == before[j].(isReplied := true)
  }

  /** The send quotes `last` or reacts to its key. */
  predicate AnswersLast(e: Effect, last: Message) {
    || (e.SendText? && e.quoted == last.data)
    || (e.SendReaction? && e.key == last.data.key)
  }

  /** The end of `handleChat` once the backend has replied: dispatch on the
      parsed reply, then mark the chat and its awaiting messages replied. */
  function Answer(chat: Chat, awaiting: seq<nat>, context: Context, text: string): (r: Round)
    requires |awaiting| > 0 && awaiting[0] < |chat.messages|
    ensures r.chat.chatId == chat.chatId && r.chat.status == Replied
    ensures MarksExactly(chat.messages, r.chat.messages, awaiting)
    ensures |r.effects| == 3 && r.effects[0] == SetPresence(Available, chat.chatId)
            && r.effects[1] == SetPresence(Composing, chat.chatId)
    ensures SendsTo(r.effects, chat.chatId) == 1
    ensures AnswersLast(r.effects[2], chat.messages[|chat.messages| - 1])
    ensures r.query == Some(context)
  {
    var last := chat.messages[|chat.messages| - 1];
    var sent := Dispatch(chat.chatId, last, ParseResponse(text));
    var effects := [SetPresence(Available, chat.chatId), SetPresence(Composing, chat.chatId), sent];
    var r := Round(chat.(status := Replied, messages := MarkReplied(chat.messages, awaiting)), effects, Some(context));
    AnsweredRound(chat, awaiting, last, sent, r);
    r
  }

  /** What a round that marks `awaiting` and sends `sent` after the two presence updates amounts to. */
  lemma AnsweredRound(chat: Chat, awaiting: seq<nat>, last: Message, sent: Effect, r: Round)
    requires (sent.SendText? || sent.SendReaction?) && sent.to == chat.chatId
    requires sent.SendText? ==> sent.quoted == last.data
    requires sent.SendReaction? ==> sent.key == last.data.key
    requires r.chat == chat.(status := Replied, messages := MarkReplied(chat.messages, awaiting))
    requires r.effects == [SetPresence(Available, chat.chatId), SetPresence(Composing, chat.chatId), sent]
    ensures r.chat.chatId == chat.chatId && r.chat.status == Replied
    ensures MarksExactly(chat.messages, r.chat.messages, awaiting)
    ensures |r.effects| == 3 && r.effects[0] == SetPresence(Available, chat.chatId)
            && r.effects[1] == SetPresence(Composing, chat.chatId)
    ensures SendsTo(r.effects, chat.chatId) == 1
    ensures AnswersLast(r.effects[2], last)
  {
    AnswerSendsOnce(chat.chatId, sent);
    MarkRepliedFlags(chat.messages, awaiting);
  }

  /** With every message replied, nothing is awaiting a reply. */
  lemma {:induction false} NoneAwaiting(msgs: seq<Message>, from: nat)
    requires from <= |msgs|
    requires forall i :: from <= i < |msgs| ==> msgs[i].isReplied
    ensures AwaitingIndices(msgs, from) == []
    decreases |msgs| - from
  {
    if from < |msgs| {
      NoneAwaiting(msgs, from + 1);
    }
  }

  /** One unreplied message is enough for the awaiting set to be non-empty. */
  lemma SomeAwaiting(msgs: seq<Message>, i: nat)
    requires i < |msgs| && !msgs[i].isReplied
    ensures |AwaitingIndices(msgs, 0)| > 0
  {
    assert i in AwaitingIndices(msgs, 0);
  }

  /** Marking the awaiting messages leaves every message replied. */
  lemma MarkAllAwaiting(msgs: seq<Message>)
    ensures forall i :: 0 <= i < |msgs| ==> MarkReplied(msgs, AwaitingIndices(msgs, 0))[i].isReplied
  {
    var awaiting := AwaitingIndices(msgs, 0);
    var marked := MarkReplied(msgs, awaiting);
    forall i | 0 <= i < |msgs|
      ensures marked[i].isReplied
    {
      if !msgs[i].isReplied {
        assert i in awaiting;
      }
    }
  }

  /**
    A round changes nothing but `isReplied` flags and the status; flags never
    revert; and a round that changes the chat leaves every message replied.
   */
  lemma HandleChatMarks(chat: Chat, reply: Option<string>)
    ensures var r := HandleChat(chat, reply);
            && |r.chat.messages| == |chat.messages|
            && (forall i :: 0 <= i < |chat.messages| ==>
                  r.chat.messages[i] == chat.messages[i].(isReplied := r.chat.messages[i].isReplied))
            && (forall i :: 0 <= i < |chat.messages| && chat.messages[i].isReplied ==> r.chat.messages[i].isReplied)
            && (r.chat != chat ==> forall i :: 0 <= i < |r.chat.messages| ==> r.chat.messages[i].isReplied)
  {
    var r := HandleChat(chat, reply);
    if r.chat != chat {
      var awaiting := AwaitingIndices(chat.messages, 0);
      var context := MapQuestionToContext(chat).context;
      assert chat.status == AwaitingReply && |awaiting| > 0 && reply.Some?;
      assert r == Answer(chat, awaiting, context, reply.value);
      MarkAllAwaiting(chat.messages);
    }
  }

  /** With nothing awaiting a reply there is no backend call and no state change. */
  lemma HandleChatNothingAwaiting(chat: Chat, reply: Option<string>)
    requires chat.status == AwaitingReply
    requires forall i :: 0 <= i < |chat.messages| ==> chat.messages[i].isReplied
    ensures HandleChat(chat, reply) == Round(chat, [SetPresence(Available, chat.chatId)], None)
  {
    NoneAwaiting(chat.messages, 0);
  }

  /**
    A chat awaiting a reply with unreplied messages, once the backend replies,
    gets the two presence updates and exactly one dispatch aimed at its last
    message.
   */
  lemma HandleChatAnswers(chat: Chat, text: string, i: nat)
    requires chat.status == AwaitingReply
    requires i < |chat.messages| && !chat.messages[i].isReplied
    ensures HandleChat(chat, Some(text)).query == Some(MapQuestionToContext(chat).context)
    ensures HandleChat(chat, Some(text)).effects
            == [SetPresence(Available, chat.chatId), SetPresence(Composing, chat.chatId),
                Dispatch(chat.chatId, chat.messages[|chat.messages| - 1], ParseResponse(text))]
  {
    SomeAwaiting(chat.messages, i);
    var q := MapQuestionToContext(chat);
    assert HandleChat(chat, Some(text)) == Answer(chat, q.awaiting, q.context, text);
  }

  /** After that dispatch the chat is `REPLIED` and every message is marked replied. */
  lemma HandleChatAnswersMarks(chat: Chat, text: string, i: nat)
    requires chat.status == AwaitingReply
    requires i < |chat.messages| && !chat.messages[i].isReplied
    ensures HandleChat(chat, Some(text)).chat.status == Replied
    ensures forall i :: 0 <= i < |chat.messages| ==> HandleChat(chat, Some(text)).chat.messages[i].isReplied
  {
    SomeAwaiting(chat.messages, i);
    assert HandleChat(chat, Some(text)).chat.status == Replied;
    HandleChatMarks(chat, Some(text));
  }

  /** A failed backend call asks the question and leaves the chat untouched. */
  lemma HandleChatBackendFails(chat: Chat, i: nat)
    requires chat.status == AwaitingReply
    requires i < |chat.messages| && !chat.messages[i].isReplied
    ensures HandleChat(chat, None).chat == chat
    ensures HandleChat(chat, None).query == Some(MapQuestionToContext(chat).context)
  {
    SomeAwaiting(chat.messages, i);
  }

  /** Without a backend call the outcome does not depend on the backend's reply. */
  lemma HandleChatNoCallNoReply(chat: Chat, reply1: Option<string>, reply2: Option<string>)
    requires HandleChat(chat, reply1).query.None?
    ensures HandleChat(chat, reply2) == HandleChat(chat, reply1)
  {
  }

  /** Running the round again on an answered chat, with no new input, changes nothing. */
  lemma HandleChatIdempotent(chat: Chat, reply1: Option<string>, reply2: Option<string>)
    ensures var once := HandleChat(chat, reply1).chat;
            once != chat ==> HandleChat(once, reply2) == Round(once, [], None)
  {
  }

  /**
    Three self-authored and two counterpart messages, none replied yet: all
    five are awaiting a reply (the source does not filter by author there),
    while the pending block lists only the counterpart's two.
   */
  lemma MixedAuthorsScenario(chat: Chat)
    requires |chat.messages| == 5
    requires forall i :: 0 <= i < 5 ==> !chat.messages[i].isReplied
    requires forall i :: 0 <= i < 3 ==> chat.messages[i].isFromMe
    requires forall i :: 3 <= i < 5 ==> !chat.messages[i].isFromMe
    ensures |MapQuestionToContext(chat).awaiting| == 5
    ensures |MapQuestionToContext(chat).context.pending| == 2
  {
    QuestionPending(chat);
    AwaitingCount(chat.messages, 0);
    MixedUnanswered(chat.messages);
  }

  lemma MixedUnanswered(ms: seq<Message>)
    requires |ms| == 5
    requires forall i :: 0 <= i < 5 ==> !ms[i].isReplied
    requires forall i :: 0 <= i < 3 ==> ms[i].isFromMe
    requires forall i :: 3 <= i < 5 ==> !ms[i].isFromMe
    ensures Unanswered(ms) == [ms[3], ms[4]]
  {
    assert ms[1..][1..] == ms[2..];
    assert ms[2..][1..] == ms[3..];
    assert ms[3..][1..] == ms[4..];
    assert ms[4..][1..] == [];
    assert Unanswered(ms[4..]) == [ms[4]];
    assert Unanswered(ms[3..]) == [ms[3], ms[4]];
    assert Unanswered(ms[2..]) == [ms[3], ms[4]];
    assert Unanswered(ms[1..]) == [ms[3], ms[4]];
  }

  /** With no message replied, every position is awaiting a reply. */
  lemma {:induction false} AwaitingCount(msgs: seq<Message>, from: nat)
    requires from <= |msgs|
    requires forall i :: from <= i < |msgs| ==> !msgs[i].isReplied
    ensures |AwaitingIndices(msgs, from)| == |msgs| - from
    decreases |msgs| - from
  {
    if from < |msgs| {
      AwaitingCount(msgs, from + 1);
    }
  }

  /** The number of messages (texts or reactions) sent to chat `k`. */
  function SendsTo(effects: seq<Effect>, k: string): nat {
    if effects == [] then 0
    else
      (if (effects[0].SendText? || effects[0].SendReaction?) && effects[0].to == k then 1 else 0)
      + SendsTo(effects[1..], k)
  }

  lemma {:induction false} SendsToAppend(a: seq<Effect>, b: seq<Effect>, k: string)
    ensures SendsTo(a + b, k) == SendsTo(a, k) + SendsTo(b, k)
  {
    if a == [] {
      assert a + b == b;
    } else {
      assert (a + b)[0] == a[0];
      assert (a + b)[1..] == a[1..] + b;
      SendsToAppend(a[1..], b, k);
    }
  }

  /**
    One round sends at most one message, only to its own chat, and only by
    moving the chat from `AWAITING_REPLY` to `REPLIED`; a round that sends
    nothing leaves the chat as it was.
   */
  lemma HandleChatSends(chat: Chat, reply: Option<string>, k: string)
    ensures var r := HandleChat(chat, reply);
            && SendsTo(r.effects, k) <= (if k == chat.chatId then 1 else 0)
            && (SendsTo(r.effects, k) == 1 ==> chat.status == AwaitingReply && r.chat.status == Replied)
            && (SendsTo(r.effects, k) == 0 && k == chat.chatId ==> r.chat == chat)
  {
    var r := HandleChat(chat, reply);
    HandleChatShape(chat, reply);
    SendsOfShape(r.effects, chat.chatId, k);
  }

  lemma SendsOfShape(effects: seq<Effect>, chatId: string, k: string)
    requires || (forall i :: 0 <= i < |effects| ==> effects[i].SetPresence?)
             || (|effects| == 3 && effects[0].SetPresence? && effects[1].SetPresence?
                 && (effects[2].SendText? || effects[2].SendReaction?) && effects[2].to == chatId)
    ensures SendsTo(effects, k) == if |effects| == 3 && !effects[2].SetPresence? && k == chatId then 1 else 0
  {
    if forall i :: 0 <= i < |effects| ==> effects[i].SetPresence? {
      NoSendsInPresence(effects, k);
    } else {
      var tail := effects[1..][1..];
      assert tail == [effects[2]] && tail[1..] == [];
      assert SendsTo(tail, k) == if k == chatId then 1 else 0;
      assert SendsTo(effects[1..], k) == SendsTo(tail, k);
    }
  }

  /** The effects of one round: nothing, presence updates, or presence updates then one dispatch. */
  lemma HandleChatShape(chat: Chat, reply: Option<string>)
    ensures PresenceOnly(chat, HandleChat(chat, reply)) || Dispatched(chat, HandleChat(chat, reply))
  {
    if chat.status == AwaitingReply && |MapQuestionToContext(chat).awaiting| > 0 && reply.Some? {
      AnsweredShape(chat, reply.value);
    } else {
      QuietShape(chat, reply);
    }
  }

  lemma QuietShape(chat: Chat, reply: Option<string>)
    requires chat.status != AwaitingReply || |MapQuestionToContext(chat).awaiting| == 0 || reply.None?
    ensures PresenceOnly(chat, HandleChat(chat, reply))
  {
    if chat.status != AwaitingReply {
    } else if |MapQuestionToContext(chat).awaiting| == 0 {
      NothingAwaitingRound(chat, reply);
    } else {
      FailedBackendRound(chat);
    }
  }

  /** An awaiting chat with nothing unreplied only gets the "available" presence. */
  lemma NothingAwaitingRound(chat: Chat, reply: Option<string>)
    requires chat.status == AwaitingReply && |MapQuestionToContext(chat).awaiting| == 0
    ensures HandleChat(chat, reply) == Round(chat, [SetPresence(Available, chat.chatId)], None)
  {
  }

  /** Without a backend reply, an awaiting chat gets both presence updates and nothing else. */
  lemma FailedBackendRound(chat: Chat)
    requires chat.status == AwaitingReply && |MapQuestionToContext(chat).awaiting| > 0
    ensures HandleChat(chat, None)
            == Round(chat, [SetPresence(Available, chat.chatId), SetPresence(Composing, chat.chatId)],
                     Some(MapQuestionToContext(chat).context))
  {
  }

  lemma AnsweredShape(chat: Chat, text: string)
    requires chat.status == AwaitingReply && |MapQuestionToContext(chat).awaiting| > 0
    ensures Dispatched(chat, HandleChat(chat, Some(text)))
  {
    var q := MapQuestionToContext(chat);
    var a := Answer(chat, q.awaiting, q.context, text);
    assert Dispatched(chat, a);
    assert HandleChat(chat, Some(text)) == a;
  }

  /** A round that only updates presence, at most twice, and leaves the chat as it was. */
  predicate PresenceOnly(chat: Chat, r: Round) {
    |r.effects| <= 2 && r.chat == chat && forall i :: 0 <= i < |r.effects| ==> r.effects[i].SetPresence?
  }

  /** A round that updates presence twice, then sends one message to the chat and marks it replied. */
  predicate Dispatched(chat: Chat, r: Round) {
    && |r.effects| == 3 && r.effects[0].SetPresence? && r.effects[1].SetPresence?
    && (r.effects[2].SendText? || r.effects[2].SendReaction?) && r.effects[2].to == chat.chatId
    && chat.status == AwaitingReply && r.chat.status == Replied
  }

  lemma {:induction false} NoSendsInPresence(effects: seq<Effect>, k: string)
    requires forall i :: 0 <= i < |effects| ==> effects[i].SetPresence?
    ensures SendsTo(effects, k) == 0
  {
    if effects != [] {
      NoSendsInPresence(effects[1..], k);
    }
  }

  /** The outcome of handling a sequence of chats, or a whole batch. */
  datatype Outcome = Outcome(registry: Registry, effects: seq<Effect>, queries: seq<Context>)

  /** The round `handleChat` plays on `chat` when the backend is `backend`. */
  function RoundOf(chat: Chat, backend: Context -> Option<string>): Round {
    HandleChat(chat, backend(MapQuestionToContext(chat).context))
  }

  /**
    `chats.forEach(chat => this.handleChat(sock, chat))`, one chat after the
    other. The backend is a function of the question it is asked.
   */
  function HandleAll(reg: Registry, ids: seq<string>, backend: Context -> Option<string>): (o: Outcome)
    requires forall j :: 0 <= j < |ids| ==> ids[j] in reg
    ensures o.registry.Keys == reg.Keys
    ensures forall k :: k in reg && k !in ids ==> o.registry[k] == reg[k]
    ensures WellFormed(reg) ==> WellFormed(o.registry)
  {
    if ids == [] then Outcome(reg, [], [])
    else
      var round := RoundOf(reg[ids[0]], backend);
      var rest := HandleAll(reg[ids[0] := round.chat], ids[1..], backend);
      var asked := if round.query.Some? then [round.query.value] else [];
      Outcome(rest.registry, round.effects + rest.effects, asked + rest.queries)
  }

  /**
    However often a chat appears in the list, it is sent at most one message,
    and only if it was awaiting a reply.
   */
  lemma {:induction false} HandleAllSendsOnce(reg: Registry, ids: seq<string>, backend: Context -> Option<string>, k: string)
    requires WellFormed(reg)
    requires forall j :: 0 <= j < |ids| ==> ids[j] in reg
    ensures SendsTo(HandleAll(reg, ids, backend).effects, k)
            <= if k in reg && reg[k].status == AwaitingReply then 1 else 0
  {
    if ids != [] {
      var chat := reg[ids[0]];
      var round := RoundOf(chat, backend);
      var reg' := reg[ids[0] := round.chat];
      var rest := HandleAll(reg', ids[1..], backend);
      assert HandleAll(reg, ids, backend).effects == round.effects + rest.effects;
      assert WellFormed(reg');
      HandleAllSendsOnce(reg', ids[1..], backend, k);
      SendsToAppend(round.effects, rest.effects, k);
      HandleChatSends(chat, backend(MapQuestionToContext(chat).context), k);
    }
  }

  /**
    A listed chat that awaits a reply, has an unreplied message and gets a
    backend reply is sent exactly one message, however often it is listed.
   */
  lemma HandleAllAnswers(reg: Registry, ids: seq<string>, backend: Context -> Option<string>, k: string, i: nat)
    requires WellFormed(reg)
    requires forall j :: 0 <= j < |ids| ==> ids[j] in reg
    requires k in ids && k in reg && reg[k].status == AwaitingReply
    requires i < |reg[k].messages| && !reg[k].messages[i].isReplied
    requires backend(MapQuestionToContext(reg[k]).context).Some?
    ensures SendsTo(HandleAll(reg, ids, backend).effects, k) == 1
  {
    var p :| 0 <= p < |ids| && ids[p] == k;
    var step := (c: Chat) => RoundOf(c, backend);
    FirstRoundAnswers(reg[k], backend, i);
    LoopReaches(reg, ids, step, p, reg[k]);
    HandleAllIsLoop(reg, ids, backend, step);
    HandleAllSendsOnce(reg, ids, backend, k);
  }

  /** The effects of playing `step` on each listed chat in turn, each round writing its chat back. */
  function LoopEffects(reg: Registry, ids: seq<string>, step: Chat -> Round): seq<Effect>
    requires forall j :: 0 <= j < |ids| ==> ids[j] in reg
    decreases |ids|
  {
    if ids == [] then []
    else
      var round := step(reg[ids[0]]);
      round.effects + LoopEffects(reg[ids[0] := round.chat], ids[1..], step)
  }

  /** `HandleAll` is that loop with `handleChat` as the step. */
  lemma {:induction false} HandleAllIsLoop(reg: Registry, ids: seq<string>, backend: Context -> Option<string>,
                                           step: Chat -> Round)
    requires forall j :: 0 <= j < |ids| ==> ids[j] in reg
    requires forall c :: step(c) == RoundOf(c, backend)
    ensures HandleAll(reg, ids, backend).effects == LoopEffects(reg, ids, step)
    decreases |ids|
  {
    if ids != [] {
      var round := RoundOf(reg[ids[0]], backend);
      HandleAllIsLoop(reg[ids[0] := round.chat], ids[1..], backend, step);
    }
  }

  /**
    Whatever the step, the loop sends `chat`, listed at `p`, at least what
    one step on it sends: the steps before its first listing touch other
    chats only.
   */
  lemma {:induction false} LoopReaches(reg: Registry, ids: seq<string>, step: Chat -> Round, p: nat, chat: Chat)
    requires forall j :: 0 <= j < |ids| ==> ids[j] in reg
    requires p < |ids| && reg[ids[p]] == chat && chat.chatId == ids[p]
    requires SendsTo(step(chat).effects, chat.chatId) >= 1
    ensures SendsTo(LoopEffects(reg, ids, step), chat.chatId) >= 1
    decreases p
  {
    var round := step(reg[ids[0]]);
    var rest := LoopEffects(reg[ids[0] := round.chat], ids[1..], step);
    SendsToAppend(round.effects, rest, chat.chatId);
    if p != 0 && ids[0] != chat.chatId {
      assert ids[1..][p - 1] == ids[p];
      LoopReaches(reg[ids[0] := round.chat], ids[1..], step, p - 1, chat);
    }
  }

  /** The round of a chat that is answered sends it one message and leaves it `REPLIED`. */
  lemma FirstRoundAnswers(chat: Chat, backend: Context -> Option<string>, i: nat)
    requires chat.status == AwaitingReply
    requires i < |chat.messages| && !chat.messages[i].isReplied
    requires backend(MapQuestionToContext(chat).context).Some?
    ensures SendsTo(RoundOf(chat, backend).effects, chat.chatId) == 1
    ensures RoundOf(chat, backend).chat.status == Replied
  {
    var text := backend(MapQuestionToContext(chat).context).value;
    AnsweredRoundSendsOnce(chat, text, i);
    HandleChatAnswersMarks(chat, text, i);
  }

  /** Chats that are not awaiting a reply produce no effect, no question and no change. */
  lemma {:induction false} HandleAllQuiet(reg: Registry, ids: seq<string>, backend: Context -> Option<string>)
    requires forall j :: 0 <= j < |ids| ==> ids[j] in reg && reg[ids[j]].status != AwaitingReply
    ensures HandleAll(reg, ids, backend) == Outcome(reg, [], [])
  {
    if ids != [] {
      var chat := reg[ids[0]];
      assert reg[ids[0] := chat] == reg;
      HandleAllQuiet(reg, ids[1..], backend);
    }
  }

  /**
    `chats.forEach(chat => this.handleChat(sock, chat))` as the source runs
    it: `forEach` does not await, so every call checks the status and builds
    its question before any call resumes from the backend. Each round is
    therefore computed from `snapshot`, the registry before the loop; the
    writes land in `reg`. Only the ordering of effects across calls is
    simplified: each call's effects are listed together.
   */
  function HandleAllInterleaved(snapshot: Registry, reg: Registry, ids: seq<string>,
                                backend: Context -> Option<string>): (o: Outcome)
    requires forall j :: 0 <= j < |ids| ==> ids[j] in snapshot
    ensures |o.queries| <= |ids|
    ensures o.effects == EffectsOf(SnapshotRounds(snapshot, ids, backend))
    ensures o.queries == QueriesOf(SnapshotRounds(snapshot, ids, backend))
    ensures o.registry == Written(reg, ids, SnapshotRounds(snapshot, ids, backend))
    decreases |ids|
  {
    if ids == [] then Outcome(reg, [], [])
    else
      var round := RoundOf(snapshot[ids[0]], backend);
      assert SnapshotRounds(snapshot, ids, backend)[1..] == SnapshotRounds(snapshot, ids[1..], backend);
      var rest := HandleAllInterleaved(snapshot, reg[ids[0] := round.chat], ids[1..], backend);
      var asked := if round.query.Some? then [round.query.value] else [];
      Outcome(rest.registry, round.effects + rest.effects, asked + rest.queries)
  }

  /**
    What the interleaved loop leaves in the registry: chats it does not visit
    keep their entry, and every chat it visits holds the chat its calls wrote,
    computed from the snapshot (all calls on one chat write the same chat).
   */
  lemma InterleavedLastWriteWins(snapshot: Registry, reg: Registry, ids: seq<string>,
                                 backend: Context -> Option<string>)
    requires forall j :: 0 <= j < |ids| ==> ids[j] in snapshot
    ensures var o := HandleAllInterleaved(snapshot, reg, ids, backend);
            && (forall k :: k in reg && k !in ids ==> k in o.registry && o.registry[k] == reg[k])
            && (forall j :: 0 <= j < |ids| ==>
                  ids[j] in o.registry && o.registry[ids[j]] == RoundOf(snapshot[ids[j]], backend).chat)
  {
    var rs := SnapshotRounds(snapshot, ids, backend);
    WrittenLastWins(reg, ids, rs);
    WrittenAgreeing(reg, ids, rs);
  }

  /** The registry after each round's chat is written over its id, in order. */
  function Written(reg: Registry, ids: seq<string>, rs: seq<Round>): Registry
    requires |rs| == |ids|
    decreases |ids|
  {
    if ids == [] then reg else Written(reg[ids[0] := rs[0].chat], ids[1..], rs[1..])
  }

  /** Writing in order: unwritten ids keep their entry and the last write to the last id stays. */
  lemma {:induction false} WrittenLastWins(reg: Registry, ids: seq<string>, rs: seq<Round>)
    requires |rs| == |ids|
    ensures var w := Written(reg, ids, rs);
            && (forall k :: k in reg && k !in ids ==> k in w && w[k] == reg[k])
            && (forall j :: 0 <= j < |ids| ==> ids[j] in w)
            && (ids != [] ==> w[ids[|ids| - 1]] == rs[|rs| - 1].chat)
    decreases |ids|
  {
    if ids != [] {
      WrittenLastWins(reg[ids[0] := rs[0].chat], ids[1..], rs[1..]);
      if |ids| > 1 {
        assert ids[|ids| - 1] == ids[1..][|ids[1..]| - 1];
        assert rs[|rs| - 1] == rs[1..][|rs[1..]| - 1];
      }
      assert forall k :: k !in ids ==> k !in ids[1..] && k != ids[0];
      assert forall j :: 0 < j < |ids| ==> ids[j] == ids[1..][j - 1];
    }
  }

  /** When every write to one id writes the same chat, each written id holds its write. */
  lemma {:induction false} WrittenAgreeing(reg: Registry, ids: seq<string>, rs: seq<Round>)
    requires |rs| == |ids|
    requires forall i, j :: 0 <= i < |ids| && 0 <= j < |ids| && ids[i] == ids[j] ==> rs[i].chat == rs[j].chat
    ensures var w := Written(reg, ids, rs);
            forall j :: 0 <= j < |ids| ==> ids[j] in w && w[ids[j]] == rs[j].chat
    decreases |ids|
  {
    if ids != [] {
      var reg' := reg[ids[0] := rs[0].chat];
      WrittenAgreeing(reg', ids[1..], rs[1..]);
      WrittenLastWins(reg', ids[1..], rs[1..]);
      assert forall j :: 0 < j < |ids| ==> ids[j] == ids[1..][j - 1] && rs[j] == rs[1..][j - 1];
      if ids[0] in ids[1..] {
        var m :| 0 <= m < |ids[1..]| && ids[1..][m] == ids[0];
        assert ids[m + 1] == ids[0];
      }
    }
  }

  /** The rounds the calls of one `forEach` play: call `j` sees `snapshot[ids[j]]`. */
  function SnapshotRounds(snapshot: Registry, ids: seq<string>, backend: Context -> Option<string>): (rs: seq<Round>)
    requires forall j :: 0 <= j < |ids| ==> ids[j] in snapshot
    ensures |rs| == |ids|
    ensures forall j :: 0 <= j < |ids| ==> rs[j] == RoundOf(snapshot[ids[j]], backend)
  {
    seq(|ids|, j requires 0 <= j < |ids| => RoundOf(snapshot[ids[j]], backend))
  }

  /** The effects of a list of rounds, in order. */
  function EffectsOf(rs: seq<Round>): seq<Effect> {
    if rs == [] then [] else rs[0].effects + EffectsOf(rs[1..])
  }

  /** The questions a list of rounds asked, in order. */
  function QueriesOf(rs: seq<Round>): seq<Context> {
    if rs == [] then [] else (if rs[0].query.Some? then [rs[0].query.value] else []) + QueriesOf(rs[1..])
  }

  /** A round that answers sends exactly one message, to its own chat. */
  lemma AnsweredRoundSendsOnce(chat: Chat, text: string, i: nat)
    requires chat.status == AwaitingReply
    requires i < |chat.messages| && !chat.messages[i].isReplied
    ensures SendsTo(HandleChat(chat, Some(text)).effects, chat.chatId) == 1
  {
    HandleChatAnswers(chat, text, i);
    AnswerSendsOnce(chat.chatId, Dispatch(chat.chatId, chat.messages[|chat.messages| - 1], ParseResponse(text)));
  }

  /** Two presence updates and one message to the chat count as one send to it. */
  lemma AnswerSendsOnce(chatId: string, d: Effect)
    requires (d.SendText? || d.SendReaction?) && d.to == chatId
    ensures SendsTo([SetPresence(Available, chatId), SetPresence(Composing, chatId), d], chatId) == 1
  {
    SendsOfShape([SetPresence(Available, chatId), SetPresence(Composing, chatId), d], chatId, chatId);
  }

  lemma SequentialPair(reg: Registry, k: string, backend: Context -> Option<string>)
    requires k in reg
    ensures var r1 := RoundOf(reg[k], backend);
            var r2 := RoundOf(r1.chat, backend);
            HandleAll(reg, [k, k], backend).effects == r1.effects + (r2.effects + [])
  {
    var r1 := RoundOf(reg[k], backend);
    var reg' := reg[k := r1.chat];
    assert [k, k][1..] == [k] && [k][1..] == [];
    assert HandleAll(reg, [k, k], backend).effects == r1.effects + HandleAll(reg', [k], backend).effects;
  }

  lemma InterleavedPair(reg: Registry, k: string, backend: Context -> Option<string>)
    requires k in reg
    ensures var r := RoundOf(reg[k], backend);
            HandleAllInterleaved(reg, reg, [k, k], backend).effects == r.effects + (r.effects + [])
  {
    var r := RoundOf(reg[k], backend);
    assert [k, k][1..] == [k] && [k][1..] == [];
    assert HandleAllInterleaved(reg, reg, [k, k], backend).effects
           == r.effects + HandleAllInterleaved(reg, reg[k := r.chat], [k], backend).effects;
  }

  /**
    A chat listed twice (two messages from it in one batch) while it awaits a
    reply: as the source runs the rounds, both calls pass the status check
    and the chat is answered twice.
   */
  lemma InterleavedAnswersTwice(reg: Registry, k: string, i: nat, backend: Context -> Option<string>)
    requires k in reg && reg[k].chatId == k && reg[k].status == AwaitingReply
    requires i < |reg[k].messages| && !reg[k].messages[i].isReplied
    requires backend(MapQuestionToContext(reg[k]).context).Some?
    ensures SendsTo(HandleAllInterleaved(reg, reg, [k, k], backend).effects, k) == 2
  {
    var r := RoundOf(reg[k], backend);
    AnsweredRoundSendsOnce(reg[k], backend(MapQuestionToContext(reg[k]).context).value, i);
    InterleavedPair(reg, k, backend);
    SendsToAppend(r.effects, [], k);
    SendsToAppend(r.effects, r.effects + [], k);
  }

  /** The same two rounds run one after the other answer the chat once: the
      second round finds it `REPLIED`. */
  lemma SequentialAnswersOnce(reg: Registry, k: string, i: nat, backend: Context -> Option<string>)
    requires k in reg && reg[k].chatId == k && reg[k].status == AwaitingReply
    requires i < |reg[k].messages| && !reg[k].messages[i].isReplied
    requires backend(MapQuestionToContext(reg[k]).context).Some?
    ensures SendsTo(HandleAll(reg, [k, k], backend).effects, k) == 1
  {
    var text := backend(MapQuestionToContext(reg[k]).context).value;
    var r1 := RoundOf(reg[k], backend);
    var r2 := RoundOf(r1.chat, backend);
    AnsweredRoundSendsOnce(reg[k], text, i);
    HandleChatAnswersMarks(reg[k], text, i);
    assert r2.effects == [];
    SequentialPair(reg, k, backend);
    SendsToAppend(r1.effects, [], k);
  }

  /** The keys of every message in the batch, in order, for the read receipt. */
  function KeysOf(batch: seq<Delivery>): (keys: seq<MessageKey>)
    ensures |keys| == |batch| && forall i :: 0 <= i < |batch| ==> keys[i] == batch[i].raw.key
  {
    seq(|batch|, i requires 0 <= i < |batch| => batch[i].raw.key)
  }

  /**
    `handleIncomingMessage`: file the batch with the ignore callback, send one
    read receipt for every message in it, then run a round for each chat
    returned.
   */
  function HandleIncoming(reg: Registry, batch: seq<Delivery>, backend: Context -> Option<string>): (o: Outcome)
    ensures o.registry.Keys == reg.Keys + JidsOf(batch)
    ensures forall k :: k in reg && k !in JidsOf(batch) ==> o.registry[k] == reg[k]
    ensures WellFormed(reg) ==> WellFormed(o.registry)
    ensures |o.effects| >= 1 && o.effects[0] == MarkRead(KeysOf(batch))
  {
    var synced := SyncBatch(reg, batch, IgnoreStatus);
    var handled := HandleAll(synced.registry, synced.chatIds, backend);
    Outcome(handled.registry, [MarkRead(KeysOf(batch))] + handled.effects, handled.queries)
  }

  /** A batch gets at most one reply per chat, however many messages it holds for it. */
  lemma HandleIncomingRepliesOnce(reg: Registry, batch: seq<Delivery>, backend: Context -> Option<string>, k: string)
    requires WellFormed(reg)
    ensures SendsTo(HandleIncoming(reg, batch, backend).effects, k) <= 1
  {
    var synced := SyncBatch(reg, batch, IgnoreStatus);
    var handled := HandleAll(synced.registry, synced.chatIds, backend);
    HandleAllSendsOnce(synced.registry, synced.chatIds, backend, k);
    SendsAfterReceipt(KeysOf(batch), handled.effects, k);
  }

  /**
    A chat whose last message in the batch is filed and not ignored is sent
    exactly one message, when the backend replies.
   */
  lemma HandleIncomingAnswers(reg: Registry, batch: seq<Delivery>, backend: Context -> Option<string>, k: string)
    requires WellFormed(reg)
    requires k in JidsOf(batch)
    requires var d := batch[LastIndex(batch, k).value]; Succeeds(d) && !Ignores(NewMessage(d), k)
    requires backend(MapQuestionToContext(SyncBatch(reg, batch, IgnoreStatus).registry[k]).context).Some?
    ensures SendsTo(HandleIncoming(reg, batch, backend).effects, k) == 1
  {
    var synced := SyncBatch(reg, batch, IgnoreStatus);
    AwaitingAfterBatch(reg, batch, k);
    var i := FiledUnreplied(reg, batch, LastIndex(batch, k).value);
    AnsweredAfterReceipt(synced, KeysOf(batch), backend, k, i);
  }

  /** The rounds after the read receipt answer an awaiting chat once. */
  lemma AnsweredAfterReceipt(synced: Synced, keys: seq<MessageKey>, backend: Context -> Option<string>, k: string, i: nat)
    requires WellFormed(synced.registry)
    requires forall j :: 0 <= j < |synced.chatIds| ==> synced.chatIds[j] in synced.registry
    requires k in synced.chatIds && k in synced.registry && synced.registry[k].status == AwaitingReply
    requires i < |synced.registry[k].messages| && !synced.registry[k].messages[i].isReplied
    requires backend(MapQuestionToContext(synced.registry[k]).context).Some?
    ensures SendsTo([MarkRead(keys)] + HandleAll(synced.registry, synced.chatIds, backend).effects, k) == 1
  {
    HandleAllAnswers(synced.registry, synced.chatIds, backend, k, i);
    SendsAfterReceipt(keys, HandleAll(synced.registry, synced.chatIds, backend).effects, k);
  }

  /** After the batch, such a chat awaits a reply and is among the chats returned. */
  lemma AwaitingAfterBatch(reg: Registry, batch: seq<Delivery>, k: string)
    requires WellFormed(reg)
    requires k in JidsOf(batch)
    requires var d := batch[LastIndex(batch, k).value]; Succeeds(d) && !Ignores(NewMessage(d), k)
    ensures var synced := SyncBatch(reg, batch, IgnoreStatus);
            && k in synced.registry && synced.registry[k].status == AwaitingReply && k in synced.chatIds
            && WellFormed(synced.registry)
            && forall j :: 0 <= j < |synced.chatIds| ==> synced.chatIds[j] in synced.registry
  {
    SyncStatusDecidedByLast(reg, batch, k);
    SyncBatchReturnsSucceeded(reg, batch, IgnoreStatus);
    AppendedHas(batch, LastIndex(batch, k).value);
    SucceededIdsOfAppended(batch, k);
  }

  /** A filed message sits, unreplied, in its chat after the batch. */
  lemma FiledUnreplied(reg: Registry, batch: seq<Delivery>, n: nat) returns (i: nat)
    requires n < |batch| && Succeeds(batch[n])
    ensures var chat := SyncBatch(reg, batch, IgnoreStatus).registry[JidOf(batch[n])];
            i < |chat.messages| && !chat.messages[i].isReplied
  {
    var k := JidOf(batch[n]);
    assert batch[n] in batch;
    SyncBatchHistory(reg, batch, IgnoreStatus, k);
    AppendedHas(batch, n);
    var msgs := History(SyncBatch(reg, batch, IgnoreStatus).registry, k);
    assert NewMessage(batch[n]) in msgs;
    i :| 0 <= i < |msgs| && msgs[i] == NewMessage(batch[n]);
  }

  lemma SendsAfterReceipt(keys: seq<MessageKey>, effects: seq<Effect>, k: string)
    ensures SendsTo([MarkRead(keys)] + effects, k) == SendsTo(effects, k)
  {
    assert ([MarkRead(keys)] + effects)[1..] == effects;
  }

  /**
    A batch made only of messages the callback ignores (group chats,
    self-authored messages, unsupported kinds) asks the backend nothing,
    sends nothing but the read receipt, and leaves every chat it touched
    `IGNORED`.
   */
  lemma IgnoredBatchIsSilent(reg: Registry, batch: seq<Delivery>, backend: Context -> Option<string>)
    requires WellFormed(reg)
    requires forall i :: 0 <= i < |batch| ==> Succeeds(batch[i]) && Ignores(NewMessage(batch[i]), JidOf(batch[i]))
    ensures var o := HandleIncoming(reg, batch, backend);
            && o.queries == []
            && o.effects == [MarkRead(KeysOf(batch))]
            && forall k :: k in JidsOf(batch) ==> o.registry[k].status == Ignored
  {
    SyncIgnoredBatch(reg, batch);
    QuietAfterIgnoredSync(reg, batch, backend);
    assert [MarkRead(KeysOf(batch))] + [] == [MarkRead(KeysOf(batch))];
  }

  lemma QuietAfterIgnoredSync(reg: Registry, batch: seq<Delivery>, backend: Context -> Option<string>)
    requires WellFormed(reg)
    requires forall i :: 0 <= i < |batch| ==> Succeeds(batch[i]) && Ignores(NewMessage(batch[i]), JidOf(batch[i]))
    ensures var s := SyncBatch(reg, batch, IgnoreStatus);
            HandleAll(s.registry, s.chatIds, backend) == Outcome(s.registry, [], [])
  {
    var synced := SyncBatch(reg, batch, IgnoreStatus);
    SyncIgnoredBatch(reg, batch);
    QuietWhenIgnored(synced.registry, synced.chatIds, JidsOf(batch), backend);
  }

  /** A round over chats that are all ignored does nothing. */
  lemma QuietWhenIgnored(reg: Registry, ids: seq<string>, ignored: set<string>, backend: Context -> Option<string>)
    requires forall k :: k in ignored ==> k in reg && reg[k].status == Ignored
    requires forall k :: k in ids ==> k in ignored
    ensures HandleAll(reg, ids, backend) == Outcome(reg, [], [])
  {
    forall j | 0 <= j < |ids|
      ensures ids[j] in reg && reg[ids[j]].status != AwaitingReply
    {
      assert ids[j] in ignored;
    }
    HandleAllQuiet(reg, ids, backend);
  }

  lemma SyncIgnoredBatch(reg: Registry, batch: seq<Delivery>)
    requires WellFormed(reg)
    requires forall i :: 0 <= i < |batch| ==> Succeeds(batch[i]) && Ignores(NewMessage(batch[i]), JidOf(batch[i]))
    ensures forall k :: k in JidsOf(batch) ==> SyncBatch(reg, batch, IgnoreStatus).registry[k].status == Ignored
  {
    forall k | k in JidsOf(batch)
      ensures SyncBatch(reg, batch, IgnoreStatus).registry[k].status == Ignored
    {
      SyncStatusDecidedByLast(reg, batch, k);
      assert batch[LastIndex(batch, k).value] in batch;
    }
  }
}

=== FILE: protocol.dfy ===
/**
  The reply protocol between the message handler and the reasoning backend
  (whatsapp-message-handler.service.ts): the regular expression that parses
  the backend's reply into a type and a response.
 */
module Protocol {
  import opened Wrappers
  import opened Text

  const TypeTag: string := "- type:"
  const ResponseTag: string := "- response:"

  /** What the parser hands to the dispatcher: `{type, response}`. */
  datatype Reply = Reply(kind: string, response: string)

  /** The sentinel returned when the reply does not follow the grammar. */
  const Fallback: Reply := Reply("fallback", "")

  /** The two capture groups of one match. */
  datatype Captures = Captures(kind: string, response: string)

  /**
    The declarative reading of `- type:\s*(\w+)\s*- response:\s*([\s\S]*)`
    matched at the start of `r`: `r` splits into the two tags, three runs of
    white space, the word `t` and the remainder `g`.
   */
  ghost predicate Decomposes(r: string, ws1: string, t: string, ws2: string, ws3: string, g: string)
  {
    && r == TypeTag + (ws1 + (t + (ws2 + (ResponseTag + (ws3 + g)))))
    && AllSpace(ws1) && IsWord(t) && AllSpace(ws2) && AllSpace(ws3)
  }

  /**
    The regular expression matched at the start of `r`. Because `\s`, `\w`
    and `-` share no character, backtracking never helps: every `\s*` takes
    the maximal run of white space (what `TrimStart` removes), `\w+` the
    maximal run of word characters, and `[\s\S]*` the rest.
   */
  function MatchPrefix(r: string): (m: Option<Captures>)
    ensures m.Some? ==> StartsWith(r, TypeTag) && IsWord(m.value.kind)
    ensures m.Some? ==> m.value.response == [] || !IsSpace(m.value.response[0])
  {
    if !StartsWith(r, TypeTag) then None
    else
      var afterType := TrimStart(r[|TypeTag|..]);
      var k := SkipWord(afterType, 0);
      if k == 0 then None
      else
        var afterWord := TrimStart(afterType[k..]);
        if !StartsWith(afterWord, ResponseTag) then None
        else Some(Captures(afterType[..k], TrimStart(afterWord[|ResponseTag|..])))
  }

  /** The match of the regular expression at position `p` of `s`, if any. */
  function MatchAt(s: string, p: nat): Option<Captures>
    requires p <= |s|
  {
    MatchPrefix(s[p..])
  }

  /** A match at `p` starts with the type tag, so with a dash. */
  lemma MatchAtTag(s: string, p: nat)
    requires p <= |s|
    requires MatchAt(s, p).Some?
    ensures OccursAt(s, TypeTag, p)
  {
    StartsWithSuffix(s, TypeTag, p);
  }

  /** Every match is one of the decompositions: the captured remainder is the
      one whose leading white space went to the third `\s*`. */
  lemma MatchPrefixSound(r: string)
    requires MatchPrefix(r).Some?
    ensures exists ws1, ws2, ws3 :: Decomposes(r, ws1, MatchPrefix(r).value.kind, ws2, ws3, MatchPrefix(r).value.response)
  {
    var afterTag := r[|TypeTag|..];
    SplitPrefix(r, TypeTag);
    var afterType := TrimStart(afterTag);
    var ws1 := SplitTrimStart(afterTag);
    var k := SkipWord(afterType, 0);
    var ws2, ws3 := MatchTailSplit(afterType, k);
    var t := afterType[..k];
    var g := TrimStart(TrimStart(afterType[k..])[|ResponseTag|..]);
    assert MatchPrefix(r).value == Captures(t, g);
    assert Decomposes(r, ws1, t, ws2, ws3, g);
  }

  /** The part of a match after the first `\s*`: the word, white space, the
      response tag, white space and the remainder, with the white space named. */
  lemma MatchTailSplit(afterType: string, k: nat) returns (ws2: string, ws3: string)
    requires k == SkipWord(afterType, 0)
    requires StartsWith(TrimStart(afterType[k..]), ResponseTag)
    ensures AllSpace(ws2) && AllSpace(ws3)
    ensures afterType == afterType[..k] + (ws2 + (ResponseTag + (ws3 + TrimStart(TrimStart(afterType[k..])[|ResponseTag|..]))))
  {
    var t := afterType[..k];
    var rest := afterType[k..];
    assert afterType == t + rest;
    var afterWord := TrimStart(rest);
    ws2 := SplitTrimStart(rest);
    var afterResp := afterWord[|ResponseTag|..];
    SplitPrefix(afterWord, ResponseTag);
    ws3 := SplitTrimStart(afterResp);
  }

  /** Every decomposition is found, with the same type word and, once trimmed,
      the same response: the result does not depend on how the white space is
      shared out between the pieces. */
  lemma MatchPrefixComplete(r: string, ws1: string, t: string, ws2: string, ws3: string, g: string)
    requires Decomposes(r, ws1, t, ws2, ws3, g)
    ensures MatchPrefix(r) == Some(Captures(t, TrimStart(g)))
  {
    var r4 := ws3 + g;
    var r3 := ResponseTag + r4;
    var r2 := ws2 + r3;
    var r1 := t + r2;
    var r0 := ws1 + r1;
    DropPrefix(r, 0, TypeTag, r0);
    assert r1[0] == t[0];
    TrimStartOver(ws1, r1);
    SkipWordOver(r1, 0, t, r2);
    assert r1[..|t|] == t;
    assert r1[|t|..] == r2;
    assert r3[0] == '-';
    TrimStartOver(ws2, r3);
    DropPrefix(r3, 0, ResponseTag, r4);
    TrimStartAfterSpaces(ws3, g);
  }

  /** `String.prototype.match` without the `g` flag reports the leftmost match. */
  function FirstMatch(s: string, p: nat): (r: Option<nat>)
    requires p <= |s|
    ensures r.Some? ==> p <= r.value <= |s| && MatchAt(s, r.value).Some?
    ensures forall q :: p <= q <= |s| && (r.None? || q < r.value) ==> MatchAt(s, q).None?
    decreases |s| - p
  {
    if MatchAt(s, p).Some? then Some(p)
    else if p == |s| then None
    else FirstMatch(s, p + 1)
  }

  /**
    `parseResponse`: total; the sentinel when nothing matches or the second
    group is empty, otherwise both groups trimmed.
   */
  function ParseResponse(s: string): (r: Reply)
    ensures r == Fallback || (IsWord(r.kind) && r.response != [])
    ensures r != Fallback ==> !IsSpace(r.response[0]) && !IsSpace(r.response[|r.response| - 1])
    ensures (forall q :: 0 <= q <= |s| ==> MatchAt(s, q).None?) ==> r == Fallback
  {
    match FirstMatch(s, 0)
    case None => Fallback
    case Some(p) =>
      var c := MatchAt(s, p).value;
      if c.kind != [] && c.response != [] then
        WordHasNoSpaceEnds(c.kind);
        Reply(Trim(c.kind), Trim(c.response))
      else Fallback
  }

  /** The first match from `i` on is at the earliest matching position. */
  lemma FirstMatchIs(s: string, i: nat, p: nat)
    requires i <= p <= |s|
    requires MatchAt(s, p).Some?
    requires forall q :: i <= q < p ==> MatchAt(s, q).None?
    ensures FirstMatch(s, i) == Some(p)
  {
    // FirstMatch's contract: a match at p rules out None and every later position.
  }

  /** No match starts at a character other than a dash. */
  lemma NoMatchOffDash(s: string, q: nat)
    requires q < |s| && s[q] != '-'
    ensures MatchAt(s, q).None?
  {
    if MatchAt(s, q).Some? {
      MatchAtTag(s, q);
      OccursAtHead(s, TypeTag, q);
    }
  }

  /** No match starts inside a preamble that has no dash. */
  lemma NoMatchInPreamble(pre: string, body: string)
    requires forall i :: 0 <= i < |pre| ==> pre[i] != '-'
    ensures forall q :: 0 <= q < |pre| ==> MatchAt(pre + body, q).None?
  {
    var s := pre + body;
    forall q | 0 <= q < |pre| ensures MatchAt(s, q).None? {
      assert s[q] == pre[q];
      NoMatchOffDash(s, q);
    }
  }

  /** The parse is decided by the leftmost match. */
  lemma ParseAt(s: string, p: nat)
    requires p <= |s|
    requires MatchAt(s, p).Some?
    requires forall q :: 0 <= q < p ==> MatchAt(s, q).None?
    ensures var c := MatchAt(s, p).value;
            ParseResponse(s) == if c.response == [] then Fallback else Reply(c.kind, Trim(c.response))
  {
    FirstMatchIs(s, 0, p);
    WordHasNoSpaceEnds(MatchAt(s, p).value.kind);
  }

  /**
    A reply that follows the grammar, possibly after a preamble without a
    dash, parses to its type word and its trimmed response, unless the
    response is blank, in which case the sentinel comes back.
   */
  lemma ParseWellFormed(pre: string, ws1: string, t: string, ws2: string, ws3: string, g: string)
    requires forall i :: 0 <= i < |pre| ==> pre[i] != '-'
    requires AllSpace(ws1) && IsWord(t) && AllSpace(ws2) && AllSpace(ws3)
    ensures ParseResponse(pre + (TypeTag + (ws1 + (t + (ws2 + (ResponseTag + (ws3 + g)))))))
            == if Trim(g) == [] then Fallback else Reply(t, Trim(g))
  {
    var body := TypeTag + (ws1 + (t + (ws2 + (ResponseTag + (ws3 + g)))));
    var s := pre + body;
    assert s[|pre|..] == body;
    MatchPrefixComplete(body, ws1, t, ws2, ws3, g);
    NoMatchInPreamble(pre, body);
    ParseAt(s, |pre|);
    TrimStartIdempotent(g);
  }

  /** Without the literal `- type:` the reply is always the sentinel. */
  lemma ParseWithoutTypeTag(s: string)
    requires !Contains(s, TypeTag)
    ensures ParseResponse(s) == Fallback
  {
    forall q | 0 <= q <= |s| ensures MatchAt(s, q).None? {
      if MatchAt(s, q).Some? {
        MatchAtTag(s, q);
      }
    }
  }

  lemma TextExampleSplits()
    ensures "- type: text\n- response: Hello!"
            == [] + (TypeTag + (" " + ("text" + ("\n" + (ResponseTag + (" " + "Hello!"))))))
  {
  }

  lemma ReactionExampleSplits()
    ensures "- type: reaction\n- response: :like:"
            == [] + (TypeTag + (" " + ("reaction" + ("\n" + (ResponseTag + (" " + ":like:"))))))
  {
  }

  /** A reply in the prompt's own layout: one space after each tag, one line break between. */
  lemma ParseSpaced(t: string, g: string)
    requires IsWord(t) && g != [] && !IsSpace(g[0]) && !IsSpace(g[|g| - 1])
    ensures ParseResponse([] + (TypeTag + (" " + (t + ("\n" + (ResponseTag + (" " + g)))))))
            == Reply(t, g)
  {
    TrimUnchanged(g);
    ParseWellFormed([], " ", t, "\n", " ", g);
  }

  /** The text example the prompt itself gives. */
  lemma ParseTextExample()
    ensures ParseResponse("- type: text\n- response: Hello!") == Reply("text", "Hello!")
  {
    TextExampleSplits();
    ParseSpaced("text", "Hello!");
  }

  /** The reaction example the prompt itself gives. */
  lemma ParseReactionExample()
    ensures ParseResponse("- type: reaction\n- response: :like:") == Reply("reaction", ":like:")
  {
    ReactionExampleSplits();
    ParseSpaced("reaction", ":like:");
  }

  /** Free text without the grammar falls back. */
  lemma ParseFreeTextExample()
    ensures ParseResponse("I don't know") == Fallback
  {
    var s := "I don't know";
    forall q | 0 <= q <= |s| ensures MatchAt(s, q).None? {
      if q < |s| {
        NoMatchOffDash(s, q);
      }
    }
  }
}

=== FILE: reactions.dfy ===
/**
  The symbolic reaction names of whatsapp-message-handler.service.ts and the
  glyphs the transport sends for them.
 */
module Reactions {
  import opened Wrappers

  /** The `emojiMap` table, in its declaration order. The entry `":thanks"`
      has no closing colon, so the name `":thanks:"` is not in the table. */
  function Glyph(name: string): Option<string> {
    match name
    case ":like:" => Some("👍")
    case ":thinking:" => Some("🤔")
    case ":cool:" => Some("😎")
    case ":check:" => Some("✔️")
    case ":eyes:" => Some("👀")
    case ":thanks" => Some("🙏")
    case ":smile:" => Some("😊")
    case ":love:" => Some("❤️")
    case ":clap:" => Some("👏")
    case ":fire:" => Some("🔥")
    case ":rocket:" => Some("🚀")
    case ":star:" => Some("⭐")
    case ":trophy:" => Some("🏆")
    case ":wave:" => Some("👋")
    case ":party:" => Some("🎉")
    case ":thumbsdown:" => Some("👎")
    case ":cry:" => Some("😢")
    case ":laugh:" => Some("😂")
    case ":wink:" => Some("😉")
    case ":sleep:" => Some("😴")
    case ":angry:" => Some("😠")
    case ":surprise:" => Some("😲")
    case ":sweat:" => Some("😅")
    case ":music:" => Some("🎵")
    case ":cake:" => Some("🎂")
    case ":coffee:" => Some("☕")
    case ":sun:" => Some("☀️")
    case ":moon:" => Some("🌙")
    case ":rain:" => Some("🌧️")
    case ":snow:" => Some("❄️")
    case ":starstruck:" => Some("🤩")
    case ":hug:" => Some("🤗")
    case ":facepalm:" => Some("🤦")
    case ":shrug:" => Some("🤷")
    case ":dizzy:" => Some("💫")
    case ":sick:" => Some("🤢")
    case ":nerd:" => Some("🤓")
    case ":robot:" => Some("🤖")
    case ":unicorn:" => Some("🦄")
    case ":palm_tree:" => Some("🌴")
    case _ => None
  }

  /** The glyph sent for a name the table does not know. */
  const DefaultEmoji: string := "🤔"

  /** `emojiMap[response] || "🤔"`: the thinking glyph comes back exactly for
      names outside the table and for `:thinking:` itself. */
  function Emoji(name: string): (e: string)
    ensures e != []
    ensures Glyph(name).Some? ==> e == Glyph(name).value
    ensures e == DefaultEmoji <==> Glyph(name).None? || name == ":thinking:"
  {
    match Glyph(name)
    case Some(g) => if g != "" then g else DefaultEmoji
    case None => DefaultEmoji
  }

  lemma EmojiExamples()
    ensures Emoji(":like:") == "👍"
    ensures Emoji(":thanks:") == DefaultEmoji
    ensures Emoji(":thanks") == "🙏"
    ensures Emoji(":palm_tree:") == "🌴"
  {
  }
}

=== FILE: text.dfy ===
/**
  String helpers with JavaScript semantics: the `\s` and `\w` regular
  expression classes (without the `u` flag), `String.prototype.trim`,
  `startsWith`, `endsWith` and `includes`.
 */
module Text {

  /** JavaScript's `\s`. `String.prototype.trim` strips exactly this set
      (WhiteSpace and LineTerminator of ECMA-262). */
  predicate IsSpace(c: char) {
    || c == '\t' || c == '\n' || c == '\U{000B}' || c == '\U{000C}' || c == '\r'
    || c == ' ' || c == '\U{00A0}' || c == '\U{1680}'
    || ('\U{2000}' <= c <= '\U{200A}')
    || c == '\U{2028}' || c == '\U{2029}' || c == '\U{202F}' || c == '\U{205F}'
    || c == '\U{3000}' || c == '\U{FEFF}'
  }

  /** JavaScript's `\w`: ASCII letters, digits and underscore. */
  predicate IsWordChar(c: char) {
    ('a' <= c <= 'z') || ('A' <= c <= 'Z') || ('0' <= c <= '9') || c == '_'
  }

  predicate AllSpace(s: string) {
    forall i :: 0 <= i < |s| ==> IsSpace(s[i])
  }

  /** A non-empty run of word characters, what `(\w+)` captures. */
  predicate IsWord(s: string) {
    |s| > 0 && forall i :: 0 <= i < |s| ==> IsWordChar(s[i])
  }

  /** `s` contains `t` at position `i`. */
  predicate OccursAt(s: string, t: string, i: nat) {
    i + |t| <= |s| && s[i..i + |t|] == t
  }

  /** An occurrence begins with the first character of what occurs. */
  lemma OccursAtHead(s: string, t: string, i: nat)
    requires OccursAt(s, t, i) && |t| > 0
    ensures i < |s| && s[i] == t[0]
  {
    assert s[i..i + |t|][0] == s[i];
  }

  predicate StartsWith(s: string, prefix: string) {
    OccursAt(s, prefix, 0)
  }

  /** A prefix of a suffix occurs where the suffix starts. */
  lemma StartsWithSuffix(s: string, t: string, p: nat)
    requires p <= |s| && StartsWith(s[p..], t)
    ensures OccursAt(s, t, p)
  {
    assert s[p..][..|t|] == s[p..p + |t|];
  }

  predicate EndsWith(s: string, suffix: string) {
    |suffix| <= |s| && s[|s| - |suffix|..] == suffix
  }

  /** `String.prototype.includes`, searching from position `i` on. */
  function ContainsFrom(s: string, t: string, i: nat): (b: bool)
    requires i <= |s|
    ensures b <==> exists j :: i <= j && OccursAt(s, t, j)
    decreases |s| - i
  {
    if OccursAt(s, t, i) then true
    else if i == |s| then false
    else ContainsFrom(s, t, i + 1)
  }

  function Contains(s: string, t: string): (b: bool)
    ensures b <==> exists j :: OccursAt(s, t, j)
  {
    ContainsFrom(s, t, 0)
  }

  /** The end of the maximal run of white space starting at `i`: what a
      greedy `\s*` consumes there. */
  function SkipSpaces(s: string, i: nat): (j: nat)
    requires i <= |s|
    ensures i <= j <= |s|
    ensures AllSpace(s[i..j])
    ensures j == |s| || !IsSpace(s[j])
    decreases |s| - i
  {
    if i < |s| && IsSpace(s[i]) then SkipSpaces(s, i + 1) else i
  }

  /** The end of the maximal run of word characters starting at `i`: what a
      greedy `\w+` consumes there (nothing when `j == i`). */
  function SkipWord(s: string, i: nat): (j: nat)
    requires i <= |s|
    ensures i <= j <= |s|
    ensures forall k :: i <= k < j ==> IsWordChar(s[k])
    ensures j == |s| || !IsWordChar(s[j])
    decreases |s| - i
  {
    if i < |s| && IsWordChar(s[i]) then SkipWord(s, i + 1) else i
  }

  /** Leading white space removed. */
  function TrimStart(s: string): (r: string)
    ensures |r| <= |s|
    ensures r == [] || !IsSpace(r[0])
  {
    s[SkipSpaces(s, 0)..]
  }

  /** Trailing white space removed. */
  function TrimEnd(s: string): (r: string)
    ensures |r| <= |s| && r == s[..|r|]
    ensures AllSpace(s[|r|..])
    ensures r == [] || !IsSpace(r[|r| - 1])
  {
    if |s| > 0 && IsSpace(s[|s| - 1]) then
      var r := TrimEnd(s[..|s| - 1]);
      assert s[|r|..] == s[..|s| - 1][|r|..] + [s[|s| - 1]];
      r
    else s
  }

  /** `String.prototype.trim`. */
  function Trim(s: string): (r: string)
    ensures r == [] <==> AllSpace(s)
    ensures r != [] ==> !IsSpace(r[0]) && !IsSpace(r[|r| - 1])
    ensures exists a, b :: AllSpace(a) && AllSpace(b) && s == a + r + b
  {
    var t := TrimStart(s);
    var r := TrimEnd(t);
    assert r == [] ==> AllSpace(s) by {
      if r == [] {
        assert t == [];
        assert s[0..SkipSpaces(s, 0)] == s;
      }
    }
    var a := s[..SkipSpaces(s, 0)];
    var b := t[|r|..];
    assert s == a + t;
    assert t == r + b;
    assert s == a + r + b;
    r
  }

  /** `SkipSpaces` is the only index with its contract. */
  lemma SkipSpacesUnique(s: string, i: nat, j: nat)
    requires i <= j <= |s|
    requires AllSpace(s[i..j])
    requires j == |s| || !IsSpace(s[j])
    ensures SkipSpaces(s, i) == j
  {
  }

  /** `SkipWord` is the only index with its contract. */
  lemma SkipWordUnique(s: string, i: nat, j: nat)
    requires i <= j <= |s|
    requires forall k :: i <= k < j ==> IsWordChar(s[k])
    requires j == |s| || !IsWordChar(s[j])
    ensures SkipWord(s, i) == j
  {
  }

  /** Splitting the input at `i` into `a + b`: `a` occurs at `i` and `b` follows. */
  lemma DropPrefix(s: string, i: nat, a: string, b: string)
    requires i <= |s| && s[i..] == a + b
    ensures OccursAt(s, a, i)
    ensures s[i + |a|..] == b
  {
    assert s[i..i + |a|] == s[i..][..|a|] == (a + b)[..|a|] == a;
    assert s[i + |a|..] == s[i..][|a|..] == (a + b)[|a|..] == b;
  }

  /** A greedy `\s*` at `i` consumes exactly the white space `ws` in front of `rest`. */
  lemma SkipSpacesOver(s: string, i: nat, ws: string, rest: string)
    requires i <= |s| && s[i..] == ws + rest
    requires AllSpace(ws) && (rest == [] || !IsSpace(rest[0]))
    ensures SkipSpaces(s, i) == i + |ws|
  {
    DropPrefix(s, i, ws, rest);
    if rest != [] {
      assert s[i + |ws|] == s[i + |ws|..][0] == rest[0];
    }
    SkipSpacesUnique(s, i, i + |ws|);
  }

  /** A greedy `\w+` at `i` consumes exactly the word `w` in front of `rest`. */
  lemma SkipWordOver(s: string, i: nat, w: string, rest: string)
    requires i <= |s| && s[i..] == w + rest
    requires IsWord(w) && (rest == [] || !IsWordChar(rest[0]))
    ensures SkipWord(s, i) == i + |w|
  {
    DropPrefix(s, i, w, rest);
    forall k | i <= k < i + |w| ensures IsWordChar(s[k]) {
      assert s[k] == s[i..i + |w|][k - i] == w[k - i];
    }
    if rest != [] {
      assert s[i + |w|] == s[i + |w|..][0] == rest[0];
    }
    SkipWordUnique(s, i, i + |w|);
  }

  /** What a greedy `\s*` at `i` leaves is the suffix from `i` with its
      leading white space trimmed. */
  lemma SkipSpacesLeaves(s: string, i: nat)
    requires i <= |s|
    ensures s[SkipSpaces(s, i)..] == TrimStart(s[i..])
  {
    var r := s[i..];
    var z := SkipSpaces(r, 0);
    assert s[i..i + z] == r[..z];
    if i + z < |s| {
      assert s[i + z] == r[z];
    }
    SkipSpacesUnique(s, i, i + z);
    assert s[i + z..] == r[z..];
  }

  /** A string that starts with `a` is `a` followed by the rest. */
  lemma SplitPrefix(s: string, a: string)
    requires StartsWith(s, a)
    ensures s == a + s[|a|..]
  {
    assert s[..|a|] == a;
  }

  /** The white space `TrimStart` removes, returned so that callers can name it. */
  lemma SplitTrimStart(s: string) returns (ws: string)
    ensures AllSpace(ws) && s == ws + TrimStart(s)
  {
    ws := s[0..SkipSpaces(s, 0)];
  }

  /** White space in front of a string that starts with something else is
      exactly what `TrimStart` removes. */
  lemma TrimStartOver(ws: string, rest: string)
    requires AllSpace(ws) && (rest == [] || !IsSpace(rest[0]))
    ensures TrimStart(ws + rest) == rest
  {
    SkipSpacesOver(ws + rest, 0, ws, rest);
  }

  /** Leading white space does not change what `TrimStart` keeps. */
  lemma TrimStartAfterSpaces(ws: string, g: string)
    requires AllSpace(ws)
    ensures TrimStart(ws + g) == TrimStart(g)
  {
    var s := ws + g;
    var k := SkipSpaces(g, 0);
    assert s[|ws| + k..] == g[k..];
    assert s[0..|ws| + k] == ws + g[0..k];
    SkipSpacesUnique(s, 0, |ws| + k);
  }

  lemma TrimStartIdempotent(s: string)
    ensures TrimStart(TrimStart(s)) == TrimStart(s)
  {
    var t := TrimStart(s);
    SkipSpacesUnique(t, 0, 0);
  }

  /** A string with no white space at either end is its own trim. */
  lemma TrimUnchanged(s: string)
    requires s == [] || (!IsSpace(s[0]) && !IsSpace(s[|s| - 1]))
    ensures Trim(s) == s
  {
    SkipSpacesUnique(s, 0, 0);
  }

  lemma WordHasNoSpaceEnds(t: string)
    requires IsWord(t)
    ensures Trim(t) == t
  {
    assert IsWordChar(t[0]) && IsWordChar(t[|t| - 1]);
    TrimUnchanged(t);
  }
}

=== FILE: wrappers.dfy ===
/** Failure-compatible wrappers shared by the adapter model. */
module Wrappers {

  /** A value that may be absent: JavaScript's `undefined`/`null` next to a real value. */
  datatype Option<+T> = None | Some(value: T) {

    /** The wrapped value, or `default` when absent (JavaScript's `x ?? default`). */
    function GetOr(default: T): T {
      match this
      case Some(v) => v
      case None => default
    }
  }

  /** The outcome of a step that may throw: either its value or the error it raised. */
  datatype Result<+T> = Success(value: T) | Failure(error: string)
}
